=== FILE: README.md ===
# unclean_sentiments: a Dafny model of the ETL script

`scripts/main.py` builds an SQLite table `sms_price_merge` from two kinds of
input and then answers one query against it:

- a `|`-separated price file, with one row per (ticker, date);
- a directory of per-ticker message files, each with a tweet count and a
  sentiment score per (ticker, date).

Before reading a message file, the script repairs it line by line:

- it corrects the misspelt header `daet`;
- it deletes a comma that stands between two digits, in one left-to-right
  pass.

It then guesses the file's date encoding from its first row. The message rows
are concatenated and every row without a tweet count is dropped. Both tables
are indexed and sorted by (ticker, date) and left-merged. The result is stored
and counted. Finally a date query or a ticker-and-date-range query runs as a
string comparison in SQL.

This project models that core and proves what each step does and preserves.
It has one module per file:

| file | module | contents |
|---|---|---|
| `wrappers.dfy` | `Wrappers` | `Option`, `Result` |
| `text.dfy` | `Text` | decimal digits and fixed-width numbers; code-point (lexicographic) string order; `str.split` and its inverse; subsequences |
| `dates.dfy` | `Dates` | `datetime.date` validity; ISO text; the lemma that ISO text order is date order |
| `strptime.dfy` | `Strptime` | `datetime.strptime` for three formats, modelled on the regular expressions CPython's `_strptime` builds: `%Y-%m-%d`; `%Y%M%d` as written; `%Y%m%d` as intended |
| `line_repair.dfy` | `LineRepair` | the two substitutions of `clean_up_file` |
| `cli.dfy` | `Cli` | the option converters and the two cross-option checks of `cli()` |
| `tables.dfy` | `Tables` | rows, index order, `sort_index`, the null filter, the left merge and its projection |
| `date_detection.dfy` | `DateDetection` | per-file date-format detection and conversion |
| `store.dfy` | `Store` | the stored table; the date query and the ticker query |
| `pipeline.dfy` | `Pipeline` | the price table, the message-file loop, the build, and `run` |

Where the program's behaviour departs from its own description, the model
follows the code:

- The digit-comma-digit substitution is one left-to-right pass of `re.sub`,
  not a repetition to a fixpoint, so `1,2,3` becomes `12,3`
  (`LineRepair.RepairSinglePass`).
- A message file whose first row is compact and a later row ISO is not read
  with wrong dates: `pandas.to_datetime` with the compact format raises on
  the ISO row, and the build stops. In this model, where `to_datetime` is
  the strptime parser, the other direction fails too
  (`DateDetection.MixedFileRejected`); see "## Left out" for the ISO-first
  case.
- The alternate date format is `%Y%M%d` as written (see "## Findings"), and
  `Pipeline.Run` builds with it, so a compact-dated message file is stored
  with January dates.
- `%Y-%m-%d` is laxer than `YYYY-MM-DD`. `2020-1-5` and `2020-01- 5` are
  accepted, and `2020-13-01` is refused by the pattern match itself.

## Model

| member | source | states |
|---|---|---|
| LineRepair.FixTypo | scripts/main.py:65 | replacing `daet` keeps the line's length |
| LineRepair.FixTypoUnchanged | scripts/main.py:65 | the header fix changes a line exactly when the line contains `daet` |
| LineRepair.FixTypoRemovesTypo | scripts/main.py:65 | no `daet` survives the fix; a replacement never forms a new occurrence across its edges |
| LineRepair.StripDigitCommas | scripts/main.py:66 | the digit-comma-digit substitution never lengthens a line |
| LineRepair.StripOnlyDeletesCommas | scripts/main.py:66 | the substitution deletes commas and nothing else: with commas ignored the line is unchanged, and the result is a subsequence of the line |
| LineRepair.StripUnchanged | scripts/main.py:66 | the substitution changes a line exactly when it holds a digit, a comma and a digit in a row, and then shortens it |
| LineRepair.StripKeepsTypoAbsent | scripts/main.py:65-66 | deleting commas between digits never creates a `daet` |
| LineRepair.Repair | scripts/main.py:65-66 | the repaired line is never longer than the original |
| LineRepair.RepairUnchanged | scripts/main.py:65-66 | a line is left as it is exactly when it has neither the typo nor a digit-comma-digit triple |
| LineRepair.RepairRemovesTypo | scripts/main.py:65-66 | no repaired line carries the typo |
| LineRepair.RepairOnlyDeletesCommas | scripts/main.py:65-66 | after the typo fix, the repair only removes commas |
| LineRepair.StripGroupedNumber | scripts/main.py:66 | a number written with thousands separators loses every separator in the single pass |
| LineRepair.RepairGroupedNumber | scripts/main.py:65-66 | the repair turns a grouped number into its plain digits |
| LineRepair.RepairSinglePass | scripts/main.py:66 | the pass is not repeated: `1,2,3` becomes `12,3`, and only a second repair gives `123` |
| LineRepair.UnspacedNumericFieldsFuse | scripts/main.py:66 | a comma delimiter with a digit on both sides is deleted, fusing two numeric fields |
| LineRepair.SpacedDelimitersKept | scripts/main.py:66 | when every comma is followed by a blank, the line is unchanged |
| LineRepair.RepairHeader | scripts/main.py:65-66 | the header `daet,ticker,positive,tweets` is corrected to `date,ticker,positive,tweets` and otherwise left alone |
| Text.Split | scripts/main.py:27 | `str.split` yields one more piece than there are separators, no piece holds the separator, and joining the pieces gives back the text |
| Text.SplitJoin | scripts/main.py:27 | splitting pieces joined with a separator they do not contain gives back the pieces |
| Cli.ParseDQuery | scripts/main.py:33-35 | `--dquery` is accepted exactly when the whole text parses as `%Y-%m-%d`, and the result is the date it parses to |
| Cli.DQueryRoundTrip | scripts/main.py:33-35 | the ISO text of any date, given as `--dquery`, names that date |
| Cli.ParseTQuery | scripts/main.py:26-32 | `--tquery` is accepted exactly when it has exactly two colons and both date pieces parse; the ticker is the first piece verbatim and holds no colon; the start and end dates are what the second and third pieces parse to, in that order |
| Cli.TQueryRoundTrip | scripts/main.py:26-32 | any colon-free ticker with two valid dates, written `TICKER:START:END`, is read back unchanged, in either date order |
| Cli.TickerWithColonRejected | scripts/main.py:27-29 | a ticker containing a colon cannot be queried: the text has more than three pieces |
| Cli.ConvertPath | scripts/main.py:16-25 | an absent path stays absent; a present one is accepted exactly when it names an existing file (directory) and becomes its resolved path |
| Cli.ConvertDQuery | scripts/main.py:45-48 | an absent `--dquery` stays absent; a present one is converted exactly as `is_dquery` parses it |
| Cli.ConvertTQuery | scripts/main.py:49-52 | an absent `--tquery` stays absent; a present one is converted exactly as `is_tquery` parses it |
| Cli.CheckOptions | scripts/main.py:55-58 | arguments pass exactly when both build inputs or neither are given and at most one query is; the incomplete-build error takes precedence over the query conflict |
| Cli.ParseCommandLine | scripts/main.py:14-60 | an accepted command line is well formed, carries the resolved paths and the parsed query values; any bad option value rejects the whole line as an invalid value; with good values, a half build request fails with the incomplete-build error and two queries with the conflicting-queries error |
| Cli.HalfBuildRejected | scripts/main.py:55-56 | one build input without the other is always rejected |
| Cli.ValidValuesAccepted | scripts/main.py:54-58 | with valid option values, a command line is accepted exactly when it asks for both build inputs or neither and at most one query |
| Strptime.ParseIso | scripts/main.py:8 | a date `%Y-%m-%d` accepts is valid and its text has `-` after the four-digit year |
| Strptime.ParseMinuteForm | scripts/main.py:9 | every date `%Y%M%d` accepts is valid and falls in January |
| Strptime.ParseCompact | scripts/main.py:9 | a date the intended `%Y%m%d` accepts is valid and its text has a digit after the year |
| Strptime.ParseIsoFields | scripts/main.py:8 | zero-padded year, month 01-12 and day 01-31 always match; the text is accepted exactly when the three fields form a real date, so year 0000 and `2020-02-30` are refused |
| Strptime.IsoRoundTrip | scripts/main.py:8 | parsing a date's ISO text gives the date back |
| Strptime.CompactRoundTrip | scripts/main.py:9 | parsing a date's `YYYYMMDD` text with the intended format gives the date back |
| Strptime.FormsAreDisjoint | scripts/main.py:96-101 | no text is accepted both by `%Y-%m-%d` and by either compact format |
| Strptime.IsoAcceptsShortFields | scripts/main.py:8 | one-digit months and days are accepted (`2020-1-5`) |
| Strptime.IsoAcceptsBlankBeforeDay | scripts/main.py:8 | a blank in place of a day's leading zero is accepted (`2020-01- 5`) |
| Strptime.IsoRejectsBadMonth | scripts/main.py:8 | a two-digit month 00 or 13-99 is refused |
| Strptime.IsoRejectsTrailingText | scripts/main.py:8 | text after a complete date is refused |
| Strptime.MinuteFormReadsJanuary | scripts/main.py:9 | as written, the compact text of any date is read as the same day of January |
| Strptime.MinuteFormDiffers | scripts/main.py:9 | as written and as intended, the compact formats disagree on every date outside January |
| Dates.Iso | scripts/main.py:143 | a date's ISO text is ten characters with `-` at positions 4 and 7 |
| Dates.IsoOrder | scripts/main.py:150 | comparing ISO texts by code point is comparing the dates chronologically |
| Dates.IsoInjective | scripts/main.py:143 | two valid dates have the same ISO text exactly when they are equal |
| DateDetection.DetectFormat | scripts/main.py:96-100 | the primary format is chosen exactly when the first date parses with it |
| DateDetection.ConvertDates | scripts/main.py:101 | a column converts exactly when every date parses with the chosen format; rows keep their order and fields; a failure names the first unparsable row |
| DateDetection.LoadMessageFile | scripts/main.py:95-101 | an empty file fails; a non-empty file loads exactly when every row parses with the format detected on the first row, and then each row carries its parsed date; otherwise the error names the first row that does not parse |
| DateDetection.LoadRoundTrip | scripts/main.py:96-101 | with the intended `%Y%m%d`, a file written entirely in ISO form, or entirely in compact form, reads back with its dates |
| DateDetection.MixedFileRejected | scripts/main.py:96-101 | a file whose first row is in one form and a later row in the other fails to load, as written and as intended |
| DateDetection.AsWrittenCompactFileInJanuary | scripts/main.py:9 | as written, every date of a compact file that loads is in January |
| Tables.DropNullTweets | scripts/main.py:69-71 | the kept rows are exactly the rows with a tweet count, in their original order |
| Tables.DropNullTweetsIdempotent | scripts/main.py:69-71 | filtering twice is filtering once |
| Tables.NothingToDrop | scripts/main.py:69-71 | a table in which every row has a tweet count is kept whole |
| Tables.DropNullTweetsConcat | scripts/main.py:69-71 | filtering a concatenation is concatenating the filtered parts |
| Tables.CleanAfterAppend | scripts/main.py:105-108 | cleaning after each append gives the same table as appending first and cleaning once |
| Tables.SortByKey | scripts/main.py:85-86 | `sort_index` returns the same rows, as a multiset, in (ticker, date) order |
| Tables.SortIdempotent | scripts/main.py:86 | a table already in index order is returned as it is |
| Tables.PricesFor | scripts/main.py:127 | the prices matched to a key are exactly those of the price rows with that key |
| Tables.MergeRow | scripts/main.py:127-128 | a message row gives one merged row per matching price row, or one row without prices; each carries the message's key and fields |
| Tables.LeftMerge | scripts/main.py:127-128 | the merge has at least as many rows as the message table |
| Tables.LeftMergeKeepsMessages | scripts/main.py:127 | no message row is lost: each message row has a merged row carrying its key and fields |
| Tables.LeftMergeRows | scripts/main.py:127-128 | every merged row comes from a message row; its prices come from a price row with its key, and they are null only when no price row has that key |
| Tables.LeftMergeUnique | scripts/main.py:127-129 | with one price row per key, the merge has exactly one row per message row, in order, with prices null exactly when the price table lacks the key |
| Tables.LeftMergeSorted | scripts/main.py:127-128 | a message table in index order gives a merged table in index order |
| Store.Persist | scripts/main.py:132 | every merged row is stored, one stored row each |
| Store.PersistRoundTrip | scripts/main.py:127-132 | every stored row reads back as the merged row it was written from, except that a matched price row whose five cells are null reads back as no match |
| Store.StoreForgetsOnlyEmptyMatch | scripts/main.py:127-132 | two merged rows are stored alike exactly when they differ at most in whether their five null price cells came from a match |
| Store.DateQueryRows | scripts/main.py:143 | the date query returns every stored row whose date text is the query date's ISO text, as many times as the table holds it, and no other row |
| Store.DateQuery | scripts/main.py:143 | the rows the date query returns are in table order |
| Store.DateQueryIsDateFilter | scripts/main.py:143 | on a stored merge, the text comparison selects exactly the rows of that day |
| Store.TickerQueryRows | scripts/main.py:150 | the ticker query returns every row of that ticker whose date text lies between the two ISO texts, both ends included, as many times as the table holds it, and no other row |
| Store.TickerQuery | scripts/main.py:150 | the rows the ticker query returns are in table order |
| Store.TickerQueryIsRangeFilter | scripts/main.py:150 | on a stored merge, the text comparisons select exactly the rows of that ticker dated within the range |
| Store.ReversedRangeSelectsNothing | scripts/main.py:149-150 | a range whose start is after its end selects no row |
| Store.TickerQueryReport | scripts/main.py:150-155 | the ticker query prints the selected rows, each as many times as the table holds it and in table order, and the size of the whole table, which is at least the number selected |
| Pipeline.ParsePrices | scripts/main.py:79 | under the format's parser, the price dates convert exactly when every one parses; rows keep their order, ticker and prices; a failure names an unparsable row |
| Pipeline.BuildPriceTable | scripts/main.py:77-86 | the price table is the parsed rows in (ticker, date) order; it fails exactly when a price date does not parse |
| Pipeline.LoadAll | scripts/main.py:88-101 | the files load exactly when each file loads; a failure names the first file that does not, with that file's error; with a parser of valid dates every loaded date is valid |
| Pipeline.LoadAllIsConcatenation | scripts/main.py:88-105 | the loaded rows are the rows of each file, file after file |
| Pipeline.CollectMessages | scripts/main.py:88-109 | the loop yields the concatenation of all files with the null rows removed, or the first file that cannot be read |
| Pipeline.PrefixErrorIsFinal | scripts/main.py:88-109 | once some file fails to load, the whole collection fails with that file's error |
| Pipeline.BuildMessageTable | scripts/main.py:88-116 | the loop's table, indexed and sorted, is the concatenation of all files cleaned and sorted once, or the first file's load error |
| Pipeline.MessageTable | scripts/main.py:105-116 | the message table is the cleaned rows of all files, sorted by (ticker, date); every row has a tweet count, and with a parser of valid dates a valid date |
| Pipeline.Build | scripts/main.py:76-134 | the build succeeds exactly when the price file and every message file load, and otherwise fails with the price error first, then the first message file's error; the stored table is the left merge of the message table with the price table; the printed count is its size, at least the number of cleaned message rows and, with one price row per key, exactly that number; every stored row has a tweet count |
| Pipeline.Query | scripts/main.py:141-155 | a query without a stored table fails; the date query returns each row of that day as many times as the table holds it, in table order, and no other row; the ticker query does the same for its range and reports the table's size |
| Pipeline.Run | scripts/main.py:73-156 | without a price file, the stored table is kept and only queried; with one, the run succeeds exactly when the price file and every message file load; a failed build leaves the stored table as it was; a successful build stores the left merge of the message files, read with `%Y%M%d` as the alternate format, with the price table, answers the queries against that table and reports its size |

## Left out

- Reading and writing files is not modelled: the `fileinput` rewrite and its backups, `read_csv`, `to_sql`, and the database file's removal and reconnection. The model takes file contents as values.
- `os.walk` is not modelled. The message files arrive in the order the walk visits them, as a parameter.
- Logging, the usage text printed for an empty command line (`main`), and the packaging script are not modelled.
- CSV tokenisation is not modelled: delimiters, `skipinitialspace`, quoting and header handling. Rows arrive already split into fields, with numeric cells already converted, so the failure of a numeric cast (`astype`) on a non-numeric cell is not modelled.
- Pipeline.BuildMessageTable: does not model the `int32` cast of tweet counts, which wraps large counts; tweet counts are unbounded integers.
- Tables.Num: `float64` columns are modelled as exact reals. The build only copies these values and never computes with them.
- Pipeline.ParsePrices: a missing date cell (NaN) is not modelled; every cell is text.
- DateDetection.ConvertDates: a missing date cell (NaN/NaT) is not modelled; every cell is text.
- `pandas.to_datetime` is modelled as the same parser as `datetime.strptime`. Its own ISO fast path and its timestamp range (years 1677-2262) are not modelled. The ISO path is lenient: for an ISO-first file it also accepts later compact rows such as `20200215`, which this model rejects (`DateDetection.MixedFileRejected`).
- Text.IsDigit: `\d` is modelled as the ASCII digits 0-9. Python's `str` patterns also match other Unicode decimal digits.
- Tables.SortByKey: the order among rows with equal keys is not stated, because `sort_index` does not promise one.
- Store.TickerQuery: the ticker is compared as text. The SQL is built by string formatting, so a ticker containing a quote changes the statement; that is not modelled.
- Store.DateQuery: rows come back in table order. SQLite promises no order without `ORDER BY`; table order is the order of a full scan.
- Repeating an option on the command line (argparse keeps the last) is not modelled.
- The per-line repair is modelled line by line (`LineRepair.Repair`). The loop in `Pipeline` takes the already repaired file contents.

## Findings

| source | as written | input that shows it | evidently intended | confidence | as-written member | corrected member |
|---|---|---|---|---|---|---|
| scripts/main.py:9 | `alt_date_fmt = "%Y%M%d"`: `%M` is minutes, so the middle two digits are read as minutes and dropped | `20200215` is read as 15 January 2020 | `%Y%m%d`, which reads `20200215` as 15 February 2020 | high, not executed | Strptime.MinuteFormReadsJanuary | Strptime.CompactRoundTrip |

=== FILE: cli.dfy ===
/** The command line of the script (main.py:14-60): four optional options,
    each converted by its own checker, then two cross-option checks.

    Every converter failure ends the same way: argparse catches the
    `TypeError` or `ValueError` a converter raises (the one-argument
    `argparse.ArgumentError(...)` calls themselves raise `TypeError`) and
    exits with an "invalid value" usage error. The model therefore has one
    error for all of them, `InvalidValue`. */
module Cli {
  import opened Wrappers
  import opened Text
  import opened Dates
  import opened Strptime

  /** A ticker query: the ticker text and the two ends of the date range. */
  datatype TQuery = TQuery(ticker: string, start: Date, end: Date)

  datatype CliError =
    | InvalidValue            // a converter rejected an option's value
    | IncompleteBuildOptions  // only one of --price-data and --sms-data-dir
    | ConflictingQueries      // both --dquery and --tquery

  /** The parsed options; an absent option is `None`. */
  datatype Args = Args(
    priceData: Option<string>,
    smsDataDir: Option<string>,
    dquery: Option<Date>,
    tquery: Option<TQuery>)

  /** The options as they appear on the command line, before conversion. */
  datatype RawArgs = RawArgs(
    priceData: Option<string>,
    smsDataDir: Option<string>,
    dquery: Option<string>,
    tquery: Option<string>)

  // ---------------------------------------------------------------------------
  // Query converters
  // ---------------------------------------------------------------------------

  /** `is_dquery`: the whole value parsed with `%Y-%m-%d`. */
  function ParseDQuery(q: string): (r: Result<Date, CliError>)
    ensures r.Ok? <==> ParseIso(q).Some?
    ensures r.Ok? ==> Some(r.value) == ParseIso(q) && IsValid(r.value)
    ensures r.Err? ==> r.error == InvalidValue
  {
    match ParseIso(q)
    case Some(d) => Ok(d)
    case None => Err(InvalidValue)
  }

  /** A date query written in ISO form names that date. */
  lemma DQueryRoundTrip(d: Date)
    requires IsValid(d)
    ensures ParseDQuery(Iso(d)) == Ok(d)
  {
    IsoRoundTrip(d);
  }

  /** `is_tquery`: split on every `:`, demand exactly three pieces, keep the
      first verbatim as the ticker and parse the other two with `%Y-%m-%d`.
      Nothing compares the two dates. */
  function ParseTQuery(q: string): (r: Result<TQuery, CliError>)
    ensures r.Ok? <==>
              && Count(q, ':') == 2
              && ParseIso(Split(q, ':')[1]).Some?
              && ParseIso(Split(q, ':')[2]).Some?
    ensures r.Ok? ==>
              && ':' !in r.value.ticker
              && IsValid(r.value.start) && IsValid(r.value.end)
              && Split(q, ':')[0] == r.value.ticker
              && Some(r.value.start) == ParseIso(Split(q, ':')[1])
              && Some(r.value.end) == ParseIso(Split(q, ':')[2])
    ensures r.Err? ==> r.error == InvalidValue
  {
    var parts := Split(q, ':');
    if |parts| != 3 then Err(InvalidValue)
    else
      match (ParseIso(parts[1]), ParseIso(parts[2]))
      case (Some(d1), Some(d2)) => Ok(TQuery(parts[0], d1, d2))
      case _ => Err(InvalidValue)
  }

  /** The text a user writes for a ticker query, with the dates in ISO form. */
  function FormatTQuery(t: TQuery): string
    requires IsValid(t.start) && IsValid(t.end)
  {
    t.ticker + [':'] + Iso(t.start) + [':'] + Iso(t.end)
  }

  lemma NoColonInIso(d: Date)
    requires IsValid(d)
    ensures ':' !in Iso(d)
  {
    var s := Iso(d);
    forall i | 0 <= i < |s|
      ensures s[i] != ':'
    {
      assert i == 4 || i == 7 || IsDigit(s[i]) by {
        assert s == Digits(d.year, 4) + "-" + Digits(d.month, 2) + "-" + Digits(d.day, 2);
        if i < 4 {
          assert s[i] == Digits(d.year, 4)[i];
        } else if 4 < i < 7 {
          assert s[i] == Digits(d.month, 2)[i - 5];
        } else if 7 < i {
          assert s[i] == Digits(d.day, 2)[i - 8];
        }
      }
    }
  }

  /** Any ticker without a colon and any two valid dates, written as a query,
      are read back as they were written, whatever the order of the dates. */
  lemma TQueryRoundTrip(t: TQuery)
    requires ':' !in t.ticker
    requires IsValid(t.start) && IsValid(t.end)
    ensures ParseTQuery(FormatTQuery(t)) == Ok(t)
  {
    var parts := [t.ticker, Iso(t.start), Iso(t.end)];
    NoColonInIso(t.start);
    NoColonInIso(t.end);
    assert parts[1..] == [Iso(t.start), Iso(t.end)];
    assert parts[1..][1..] == [Iso(t.end)];
    assert Join(parts[1..], ':') == Iso(t.start) + [':'] + Iso(t.end);
    assert Join(parts, ':') == t.ticker + [':'] + (Iso(t.start) + [':'] + Iso(t.end));
    assert Join(parts, ':') == FormatTQuery(t);
    SplitJoin(parts, ':');
    IsoRoundTrip(t.start);
    IsoRoundTrip(t.end);
  }

  /** A ticker holding a colon cannot be queried: its query text has too many
      pieces. */
  lemma TickerWithColonRejected(t: TQuery)
    requires ':' in t.ticker
    requires IsValid(t.start) && IsValid(t.end)
    ensures ParseTQuery(FormatTQuery(t)).Err?
  {
    var a, b := Iso(t.start), Iso(t.end);
    CountPositive(t.ticker, ':');
    CountConcat(t.ticker + [':'] + a + [':'], b, ':');
    CountConcat(t.ticker + [':'] + a, [':'], ':');
    CountConcat(t.ticker + [':'], a, ':');
    CountConcat(t.ticker, [':'], ':');
    assert Count([':'], ':') == 1;
  }

  lemma {:induction false} CountPositive(s: string, c: char)
    requires c in s
    ensures Count(s, c) > 0
    decreases |s|
  {
    if s[0] != c {
      assert c in s[1..] by {
        var i :| 0 <= i < |s| && s[i] == c;
        assert s[1..][i - 1] == c;
      }
      CountPositive(s[1..], c);
    }
  }

  lemma {:induction false} CountConcat(a: string, b: string, c: char)
    ensures Count(a + b, c) == Count(a, c) + Count(b, c)
    decreases |a|
  {
    if |a| > 0 {
      assert (a + b)[1..] == a[1..] + b;
      CountConcat(a[1..], b, c);
    } else {
      assert a + b == b;
    }
  }

  // ---------------------------------------------------------------------------
  // Path converters
  // ---------------------------------------------------------------------------

  /** `is_file` / `is_dir`: an absent option stays absent; a present one must
      name an existing file (directory) and is replaced by its resolved path.
      The file system is a parameter: `present` answers `os.path.isfile` (or
      `isdir`) and `resolve` is `os.path.realpath`. */
  function ConvertPath(p: Option<string>, present: string -> bool, resolve: string -> string)
    : (r: Result<Option<string>, CliError>)
    ensures r.Ok? <==> p.None? || present(p.value)
    ensures r.Ok? ==> r.value.Some? == p.Some?
    ensures r.Ok? && p.Some? ==> r.value.value == resolve(p.value)
    ensures r.Err? ==> r.error == InvalidValue
  {
    match p
    case None => Ok(None)
    case Some(path) => if present(path) then Ok(Some(resolve(path))) else Err(InvalidValue)
  }

  function ConvertDQuery(q: Option<string>): (r: Result<Option<Date>, CliError>)
    ensures r.Ok? <==> q.None? || ParseIso(q.value).Some?
    ensures r.Ok? ==> r.value.Some? == q.Some?
    ensures r.Ok? && q.Some? ==> Some(r.value.value) == ParseIso(q.value)
  {
    match q
    case None => Ok(None)
    case Some(text) =>
      var d :- ParseDQuery(text);
      Ok(Some(d))
  }

  function ConvertTQuery(q: Option<string>): (r: Result<Option<TQuery>, CliError>)
    ensures r.Ok? <==> q.None? || ParseTQuery(q.value).Ok?
    ensures r.Ok? ==> r.value.Some? == q.Some?
    ensures r.Ok? && q.Some? ==> Ok(r.value.value) == ParseTQuery(q.value)
  {
    match q
    case None => Ok(None)
    case Some(text) =>
      var t :- ParseTQuery(text);
      Ok(Some(t))
  }

  // ---------------------------------------------------------------------------
  // Cross-option checks
  // ---------------------------------------------------------------------------

  /** Both build inputs or neither, and at most one query. Every value a
      converter returns is truthy (a resolved path is never empty, a date and a
      three-element tuple are always true), so Python's truth tests on the
      options are presence tests. */
  predicate WellFormed(a: Args) {
    && a.priceData.Some? == a.smsDataDir.Some?
    && !(a.dquery.Some? && a.tquery.Some?)
  }

  /** The two checks of main.py:55-58, in the order they are made: an
      incomplete build request is reported even when the queries also
      conflict. Accepted arguments are returned as they are. */
  function CheckOptions(a: Args): (r: Result<Args, CliError>)
    ensures r.Ok? <==> WellFormed(a)
    ensures r.Ok? ==> r.value == a
    ensures r.Err? && a.priceData.Some? != a.smsDataDir.Some? ==> r.error == IncompleteBuildOptions
    ensures r.Err? && a.priceData.Some? == a.smsDataDir.Some? ==> r.error == ConflictingQueries
  {
    if a.priceData.Some? != a.smsDataDir.Some? then Err(IncompleteBuildOptions)
    else if a.dquery.Some? && a.tquery.Some? then Err(ConflictingQueries)
    else Ok(a)
  }

  /** Every present option has a value its converter accepts. */
  predicate ValuesValid(raw: RawArgs, isFile: string -> bool, isDir: string -> bool) {
    && (raw.priceData.Some? ==> isFile(raw.priceData.value))
    && (raw.smsDataDir.Some? ==> isDir(raw.smsDataDir.value))
    && (raw.dquery.Some? ==> ParseIso(raw.dquery.value).Some?)
    && (raw.tquery.Some? ==> ParseTQuery(raw.tquery.value).Ok?)
  }

  /** The whole of `cli()`: every present option is converted, then the
      combination is checked. */
  function ParseCommandLine(raw: RawArgs, isFile: string -> bool, isDir: string -> bool, resolve: string -> string)
    : (r: Result<Args, CliError>)
    ensures r.Ok? ==> WellFormed(r.value)
    ensures r.Ok? ==> r.value.priceData == if raw.priceData.Some? then Some(resolve(raw.priceData.value)) else None
    ensures r.Ok? ==> r.value.smsDataDir == if raw.smsDataDir.Some? then Some(resolve(raw.smsDataDir.value)) else None
    ensures r.Ok? && raw.dquery.Some? ==> r.value.dquery.Some? && Some(r.value.dquery.value) == ParseIso(raw.dquery.value)
    ensures r.Ok? && raw.tquery.Some? ==> r.value.tquery.Some? && Ok(r.value.tquery.value) == ParseTQuery(raw.tquery.value)
    ensures raw.dquery.Some? && ParseIso(raw.dquery.value).None? ==> r == Err(InvalidValue)
    ensures raw.tquery.Some? && ParseTQuery(raw.tquery.value).Err? ==> r == Err(InvalidValue)
    ensures raw.priceData.Some? && !isFile(raw.priceData.value) ==> r == Err(InvalidValue)
    ensures raw.smsDataDir.Some? && !isDir(raw.smsDataDir.value) ==> r == Err(InvalidValue)
    ensures ValuesValid(raw, isFile, isDir) && raw.priceData.Some? != raw.smsDataDir.Some? ==>
              r == Err(IncompleteBuildOptions)
    ensures ValuesValid(raw, isFile, isDir) && raw.priceData.Some? == raw.smsDataDir.Some? && raw.dquery.Some? && raw.tquery.Some? ==>
              r == Err(ConflictingQueries)
  {
    var priceData :- ConvertPath(raw.priceData, isFile, resolve);
    var smsDataDir :- ConvertPath(raw.smsDataDir, isDir, resolve);
    var dquery :- ConvertDQuery(raw.dquery);
    var tquery :- ConvertTQuery(raw.tquery);
    CheckOptions(Args(priceData, smsDataDir, dquery, tquery))
  }

  /** Asking for a build with only one of its two inputs fails, whatever the
      values given. */
  lemma HalfBuildRejected(raw: RawArgs, isFile: string -> bool, isDir: string -> bool, resolve: string -> string)
    requires raw.priceData.Some? != raw.smsDataDir.Some?
    ensures ParseCommandLine(raw, isFile, isDir, resolve).Err?
  {
  }

  /** With valid values, the command line is accepted exactly when it asks for
      both build inputs or neither and at most one query. */
  lemma {:induction false} ValidValuesAccepted(raw: RawArgs, isFile: string -> bool, isDir: string -> bool, resolve: string -> string)
    requires ValuesValid(raw, isFile, isDir)
    ensures ParseCommandLine(raw, isFile, isDir, resolve).Ok? <==>
              && raw.priceData.Some? == raw.smsDataDir.Some?
              && !(raw.dquery.Some? && raw.tquery.Some?)
  {
  }
}

=== FILE: date_detection.dfy ===
/** Reading one message file's dates (main.py:95-101): the first row's date
    text decides the format for the whole file. If it parses with the primary
    format `%Y-%m-%d` every row is read with that format; otherwise every row
    is read with the alternate format. `pandas.to_datetime` is modelled as the
    strptime parser of the chosen format, so a row that does not parse with
    it makes the whole file fail. (pandas' own ISO path is laxer and is not
    modelled.)

    The alternate parser is a parameter: the script as written passes
    `%Y%M%d` (`Strptime.ParseMinuteForm`); the intended `%Y%m%d`
    (`Strptime.ParseCompact`) is the one under which a compact file reads
    back with the dates it was written with (`LoadRoundTrip`). */
module DateDetection {
  import opened Wrappers
  import opened Text
  import opened Dates
  import opened Strptime
  import opened Tables

  /** A message row as the CSV reader gives it, the date still text. */
  datatype RawRow = RawRow(ticker: string, dateText: string, positive: Option<Num>, tweets: Option<int>)

  datatype DateFormat = Primary | Alternate

  datatype LoadError =
    | EmptyFile                 // no first row to look at: `head(1)[0]` raises
    | UnparsableDate(row: nat)  // the first row the chosen format rejects

  /** The try/except of main.py:96-100. */
  function DetectFormat(first: string): (f: DateFormat)
    ensures f == Primary <==> ParseIso(first).Some?
  {
    if ParseIso(first).Some? then Primary else Alternate
  }

  /** The parser the chosen format stands for. */
  function ParserFor(f: DateFormat, alternate: string -> Option<Date>, s: string): (r: Option<Date>)
    ensures f == Primary ==> r == ParseIso(s)
    ensures f == Alternate ==> r == alternate(s)
  {
    match f
    case Primary => ParseIso(s)
    case Alternate => alternate(s)
  }

  /** The row with its date parsed. */
  function Typed(row: RawRow, d: Date): SmsRow {
    SmsRow(Key(row.ticker, d), row.positive, row.tweets)
  }

  /** `pandas.to_datetime(column, format=...)`: every row converted, or an
      error naming the first row that does not parse. */
  function ConvertDates(rows: seq<RawRow>, f: DateFormat, alternate: string -> Option<Date>)
    : (r: Result<seq<SmsRow>, LoadError>)
    ensures r.Ok? <==> forall i | 0 <= i < |rows| :: ParserFor(f, alternate, rows[i].dateText).Some?
    ensures r.Ok? ==> |r.value| == |rows|
    ensures r.Ok? ==> forall i | 0 <= i < |rows| ::
              Some(r.value[i].key.date) == ParserFor(f, alternate, rows[i].dateText)
              && r.value[i] == Typed(rows[i], r.value[i].key.date)
    ensures r.Err? ==>
              && r.error.UnparsableDate? && r.error.row < |rows|
              && ParserFor(f, alternate, rows[r.error.row].dateText).None?
              && forall i | 0 <= i < r.error.row :: ParserFor(f, alternate, rows[i].dateText).Some?
  {
    if |rows| == 0 then Ok([])
    else
      match ParserFor(f, alternate, rows[0].dateText)
      case None => Err(UnparsableDate(0))
      case Some(d) =>
        match ConvertDates(rows[1..], f, alternate)
        case Err(e) =>
          assert forall i | 0 <= i < e.row :: rows[1..][i] == rows[i + 1];
          Err(UnparsableDate(e.row + 1))
        case Ok(rest) =>
          assert forall i | 1 <= i < |rows| :: rows[i] == rows[1..][i - 1];
          Ok([Typed(rows[0], d)] + rest)
  }

  /** Every date `parse` gives is a valid calendar date. */
  ghost predicate ValidParser(parse: string -> Option<Date>) {
    forall s :: parse(s).Some? ==> IsValid(parse(s).value)
  }

  lemma ParsersValid()
    ensures ValidParser(ParseMinuteForm) && ValidParser(ParseCompact)
  {
  }

  /** Reading one message file: detect the format on the first row, then
      convert every row with it. */
  function LoadMessageFile(rows: seq<RawRow>, alternate: string -> Option<Date>)
    : (r: Result<seq<SmsRow>, LoadError>)
    ensures r == Err(EmptyFile) <==> |rows| == 0
    ensures r.Ok? <==> |rows| > 0 && forall i | 0 <= i < |rows| ::
              ParserFor(DetectFormat(rows[0].dateText), alternate, rows[i].dateText).Some?
    ensures r.Err? && |rows| > 0 ==>
              && r.error.UnparsableDate? && r.error.row < |rows|
              && ParserFor(DetectFormat(rows[0].dateText), alternate, rows[r.error.row].dateText).None?
              && forall i | 0 <= i < r.error.row ::
                   ParserFor(DetectFormat(rows[0].dateText), alternate, rows[i].dateText).Some?
    ensures r.Ok? ==> |r.value| == |rows| && forall i | 0 <= i < |rows| ::
              Some(r.value[i].key.date) == ParserFor(DetectFormat(rows[0].dateText), alternate, rows[i].dateText)
              && r.value[i] == Typed(rows[i], r.value[i].key.date)
    ensures r.Ok? && ValidParser(alternate) ==> forall i | 0 <= i < |r.value| :: IsValid(r.value[i].key.date)
  {
    if |rows| == 0 then Err(EmptyFile)
    else
      var r := ConvertDates(rows, DetectFormat(rows[0].dateText), alternate);
      if r.Ok? then
        assert forall i | 0 <= i < |r.value| ::
          ParserFor(DetectFormat(rows[0].dateText), alternate, rows[i].dateText).Some?;
        r
      else r
  }

  /** The rows of a file written with `dates` in one of the two encodings. */
  function Written(rows: seq<RawRow>, dates: seq<Date>, compact: bool): (r: seq<RawRow>)
    requires |rows| == |dates|
    requires forall i | 0 <= i < |dates| :: IsValid(dates[i])
    ensures |r| == |rows|
  {
    seq(|rows|, i requires 0 <= i < |rows| =>
      rows[i].(dateText := if compact then Compact(dates[i]) else Iso(dates[i])))
  }

  /** A file written entirely in ISO form, or entirely in the compact
      form, reads back with the dates it was written with. */
  lemma {:induction false} LoadRoundTrip(rows: seq<RawRow>, dates: seq<Date>, compact: bool)
    requires |rows| == |dates| > 0
    requires forall i | 0 <= i < |dates| :: IsValid(dates[i])
    ensures LoadMessageFile(Written(rows, dates, compact), ParseCompact).Ok?
    ensures forall i | 0 <= i < |rows| ::
              LoadMessageFile(Written(rows, dates, compact), ParseCompact).value[i] == Typed(rows[i], dates[i])
  {
    var w := Written(rows, dates, compact);
    var f := DetectFormat(w[0].dateText);
    if compact {
      CompactRoundTrip(dates[0]);
      assert f == Alternate;
    } else {
      IsoRoundTrip(dates[0]);
      assert f == Primary;
    }
    forall i | 0 <= i < |w|
      ensures ParserFor(f, ParseCompact, w[i].dateText) == Some(dates[i])
    {
      if compact {
        CompactRoundTrip(dates[i]);
      } else {
        IsoRoundTrip(dates[i]);
      }
    }
  }

  /** Under the strptime reading of `to_datetime`, a file cannot switch
      encodings part-way: if its first row is in one of the two forms and a
      later row in the other, the file is rejected, with the alternate format
      as written and as intended. */
  lemma MixedFileRejected(rows: seq<RawRow>, j: nat)
    requires 0 < j < |rows|
    requires || (ParseIso(rows[0].dateText).Some? && ParseCompact(rows[j].dateText).Some?)
             || (ParseCompact(rows[0].dateText).Some? && ParseIso(rows[j].dateText).Some?)
    ensures LoadMessageFile(rows, ParseCompact).Err?
    ensures LoadMessageFile(rows, ParseMinuteForm).Err?
  {
    var f := DetectFormat(rows[0].dateText);
    assert ParserFor(f, ParseCompact, rows[j].dateText).None?;
    assert ParserFor(f, ParseMinuteForm, rows[j].dateText).None?;
  }

  /** As written, a compact date is read with minutes in place of the month:
      every date of a compact file falls in January. */
  lemma AsWrittenCompactFileInJanuary(rows: seq<RawRow>)
    requires |rows| > 0 && ParseIso(rows[0].dateText).None?
    ensures LoadMessageFile(rows, ParseMinuteForm).Ok? ==>
              forall i | 0 <= i < |rows| :: LoadMessageFile(rows, ParseMinuteForm).value[i].key.date.month == 1
  {
  }
}

=== FILE: dates.dfy ===
/** Calendar dates as Python's `datetime.date` holds them, their ISO text
    `YYYY-MM-DD` (what `str(date)` prints and what the store keeps in its
    `date` column), and the fact the queries rely on: comparing that text
    character by character is comparing the dates. */
module Dates {
  import opened Text

  datatype Date = Date(year: int, month: int, day: int)

  /** `datetime.MINYEAR` and `datetime.MAXYEAR`. */
  const MinYear := 1
  const MaxYear := 9999

  predicate IsLeapYear(y: int) {
    y % 4 == 0 && (y % 100 != 0 || y % 400 == 0)
  }

  function DaysInMonth(y: int, m: int): (n: int)
    requires 1 <= m <= 12
    ensures 28 <= n <= 31
  {
    if m == 2 then (if IsLeapYear(y) then 29 else 28)
    else if m == 4 || m == 6 || m == 9 || m == 11 then 30
    else 31
  }

  /** The dates `datetime.date` can represent (proleptic Gregorian). */
  predicate IsValid(d: Date) {
    && MinYear <= d.year <= MaxYear
    && 1 <= d.month <= 12
    && 1 <= d.day <= DaysInMonth(d.year, d.month)
  }

  /** Chronological order. */
  predicate Le(a: Date, b: Date) {
    || a.year < b.year
    || (a.year == b.year && (a.month < b.month || (a.month == b.month && a.day <= b.day)))
  }

  /** `date.isoformat()`: `%04d-%02d-%02d`. */
  function Iso(d: Date): (s: string)
    requires IsValid(d)
    ensures |s| == 10 && s[4] == '-' && s[7] == '-'
  {
    Digits(d.year, 4) + "-" + Digits(d.month, 2) + "-" + Digits(d.day, 2)
  }

  /** Text order on ISO dates is chronological order, which is what the
      store's string comparisons `>=` and `<=` on dates depend on. */
  lemma IsoOrder(a: Date, b: Date)
    requires IsValid(a) && IsValid(b)
    ensures LexLe(Iso(a), Iso(b)) <==> Le(a, b)
  {
    IsoSplit(a);
    IsoSplit(b);
    LexLeConcat(Digits(a.year, 4), MonthDay(a), Digits(b.year, 4), MonthDay(b));
    DigitsOrder(a.year, b.year, 4);
    DigitsInjective(a.year, b.year, 4);
    MonthDayOrder(a, b);
  }

  /** The `-MM-DD` tail of the ISO text. */
  function MonthDay(d: Date): string
    requires IsValid(d)
  {
    "-" + Digits(d.month, 2) + "-" + Digits(d.day, 2)
  }

  lemma IsoSplit(d: Date)
    requires IsValid(d)
    ensures Iso(d) == Digits(d.year, 4) + MonthDay(d)
  {
  }

  /** The month-and-day tail of the ISO text is ordered by (month, day). */
  lemma MonthDayOrder(a: Date, b: Date)
    requires IsValid(a) && IsValid(b)
    ensures LexLe(MonthDay(a), MonthDay(b)) <==> a.month < b.month || (a.month == b.month && a.day <= b.day)
  {
    var ma, mb := "-" + Digits(a.month, 2), "-" + Digits(b.month, 2);
    var da, db := "-" + Digits(a.day, 2), "-" + Digits(b.day, 2);
    assert MonthDay(a) == ma + da && MonthDay(b) == mb + db;
    LexLeConcat(ma, da, mb, db);
    DashDigitsOrder(a.month, b.month, 2);
    DashDigitsOrder(a.day, b.day, 2);
  }

  /** A field behind a separator is ordered, and equal, as its value. */
  lemma DashDigitsOrder(n: nat, m: nat, width: nat)
    requires n < Pow10(width) && m < Pow10(width)
    ensures LexLe("-" + Digits(n, width), "-" + Digits(m, width)) <==> n <= m
    ensures "-" + Digits(n, width) == "-" + Digits(m, width) <==> n == m
  {
    LexLeConcat("-", Digits(n, width), "-", Digits(m, width));
    DigitsOrder(n, m, width);
    DigitsInjective(n, m, width);
    assert ("-" + Digits(n, width))[1..] == Digits(n, width);
    assert ("-" + Digits(m, width))[1..] == Digits(m, width);
    assert LexLe("-", "-");
  }

  /** Two valid dates have the same ISO text exactly when they are the same
      date, so the store's string equality on dates is date equality. */
  lemma IsoInjective(a: Date, b: Date)
    requires IsValid(a) && IsValid(b)
    ensures Iso(a) == Iso(b) <==> a == b
  {
    if Iso(a) == Iso(b) {
      IsoOrder(a, b);
      IsoOrder(b, a);
      LexLeReflexive(Iso(a));
    }
  }
}

=== FILE: line_repair.dfy ===
/** The per-line repair `clean_up_file` applies to every message file before
    it is read (main.py:65-66): first `line.replace("daet", "date")` fixes a
    misspelt header, then `re.sub(r"(\d),(\d)", r"\1\2", line)` deletes the
    comma of every digit-comma-digit match, in one left-to-right pass over
    non-overlapping matches (the scan resumes after the second digit). */
module LineRepair {
  import opened Text

  /** The replacement for the misspelt header `daet`. */
  const Correction := "date"

  // ---------------------------------------------------------------------------
  // The header typo
  // ---------------------------------------------------------------------------

  /** An occurrence of `daet` at position i. */
  predicate TypoAt(s: string, i: int) {
    0 <= i && i + 4 <= |s| && s[i] == 'd' && s[i + 1] == 'a' && s[i + 2] == 'e' && s[i + 3] == 't'
  }

  predicate HasTypo(s: string) {
    exists i | 0 <= i < |s| :: TypoAt(s, i)
  }

  /** `s.replace("daet", "date")`: occurrences are replaced left to right. */
  function FixTypo(s: string): (r: string)
    ensures |r| == |s|
  {
    if |s| == 0 then ""
    else if TypoAt(s, 0) then Correction + FixTypo(s[4..])
    else [s[0]] + FixTypo(s[1..])
  }

  /** An occurrence past a prefix is an occurrence in the rest. */
  lemma TypoAfterPrefix(p: string, t: string, i: int)
    requires i >= |p|
    ensures TypoAt(p + t, i) <==> TypoAt(t, i - |p|)
  {
    if i + 4 <= |p + t| {
      assert (p + t)[i..i + 4] == t[i - |p|..i - |p| + 4];
    }
  }

  /** Without an occurrence at the start, the occurrences are those of the tail. */
  lemma HasTypoTail(s: string)
    requires |s| > 0 && !TypoAt(s, 0)
    ensures HasTypo(s) <==> HasTypo(s[1..])
  {
    assert s == [s[0]] + s[1..];
    if HasTypo(s) {
      var i :| 0 <= i < |s| && TypoAt(s, i);
      assert i != 0;
      TypoAfterPrefix([s[0]], s[1..], i);
    }
    if HasTypo(s[1..]) {
      var i :| 0 <= i < |s[1..]| && TypoAt(s[1..], i);
      TypoAfterPrefix([s[0]], s[1..], i + 1);
      assert TypoAt(s, i + 1);
    }
  }

  lemma FixTypoFirst(s: string)
    requires |s| > 0
    ensures FixTypo(s)[0] == s[0]
  {
  }

  /** Text without the typo at its start is copied one character at a time. */
  lemma FixTypoCopies(t: string)
    requires |t| > 0 && t[0] != 'd'
    ensures FixTypo(t) == [t[0]] + FixTypo(t[1..])
  {
  }

  /** The fixed text starts with "aet" only where the original did. */
  lemma FixTypoKeepsAet(t: string)
    requires |t| >= 3
    ensures FixTypo(t)[0] == 'a' && FixTypo(t)[1] == 'e' && FixTypo(t)[2] == 't' ==>
              t[0] == 'a' && t[1] == 'e' && t[2] == 't'
  {
    if FixTypo(t)[0] == 'a' && FixTypo(t)[1] == 'e' && FixTypo(t)[2] == 't' {
      FixTypoFirst(t);
      FixTypoCopies(t);
      var t1 := t[1..];
      assert FixTypo(t1)[0] == 'e';
      FixTypoFirst(t1);
      FixTypoCopies(t1);
      var t2 := t1[1..];
      assert t2 == t[2..];
      assert FixTypo(t2)[0] == 't';
      FixTypoFirst(t2);
    }
  }

  /** The line comes back unchanged exactly when it holds no typo. */
  lemma {:induction false} FixTypoUnchanged(s: string)
    ensures FixTypo(s) == s <==> !HasTypo(s)
    decreases |s|
  {
    if |s| == 0 {
      assert !TypoAt(s, 0);
    } else if TypoAt(s, 0) {
      assert FixTypo(s)[..4] == Correction;
    } else {
      FixTypoUnchanged(s[1..]);
      HasTypoTail(s);
      assert s == [s[0]] + s[1..];
    }
  }

  /** No typo is left after the fix: replacing one occurrence cannot form
      another one across the replacement's edges. */
  lemma {:induction false} FixTypoRemovesTypo(s: string)
    ensures !HasTypo(FixTypo(s))
    decreases |s|
  {
    var r := FixTypo(s);
    if |s| == 0 {
    } else if TypoAt(s, 0) {
      var rest := FixTypo(s[4..]);
      FixTypoRemovesTypo(s[4..]);
      assert r == Correction + rest;
      assert r[0] == 'd' && r[1] == 'a' && r[2] == 't' && r[3] == 'e';
      forall i | 0 <= i < |r|
        ensures !TypoAt(r, i)
      {
        if i >= 4 {
          TypoAfterPrefix(Correction, rest, i);
        }
      }
    } else {
      var rest := FixTypo(s[1..]);
      FixTypoRemovesTypo(s[1..]);
      assert r == [s[0]] + rest;
      forall i | 0 <= i < |r|
        ensures !TypoAt(r, i)
      {
        if i >= 1 {
          TypoAfterPrefix([s[0]], rest, i);
        } else if |s| >= 4 {
          assert rest[0] == r[1] && rest[1] == r[2] && rest[2] == r[3];
          FixTypoKeepsAet(s[1..]);
          assert s[1..][0] == s[1] && s[1..][1] == s[2] && s[1..][2] == s[3];
        }
      }
    }
  }

  // ---------------------------------------------------------------------------
  // Thousands separators
  // ---------------------------------------------------------------------------

  /** A match of `(\d),(\d)` at position i. */
  predicate DigitCommaDigitAt(s: string, i: int) {
    0 <= i && i + 3 <= |s| && IsDigit(s[i]) && s[i + 1] == ',' && IsDigit(s[i + 2])
  }

  predicate HasDigitCommaDigit(s: string) {
    exists i | 0 <= i < |s| :: DigitCommaDigitAt(s, i)
  }

  /** `re.sub(r"(\d),(\d)", r"\1\2", s)`: one pass; after a match the scan
      resumes behind its second digit, so that digit cannot start another. */
  function StripDigitCommas(s: string): (r: string)
    ensures |r| <= |s|
  {
    if |s| == 0 then ""
    else if DigitCommaDigitAt(s, 0) then [s[0], s[2]] + StripDigitCommas(s[3..])
    else [s[0]] + StripDigitCommas(s[1..])
  }

  /** The text with every comma removed. */
  function DropCommas(s: string): string
  {
    if |s| == 0 then ""
    else if s[0] == ',' then DropCommas(s[1..])
    else [s[0]] + DropCommas(s[1..])
  }

  lemma {:induction false} DropCommasAppend(a: string, b: string)
    ensures DropCommas(a + b) == DropCommas(a) + DropCommas(b)
    decreases |a|
  {
    if |a| == 0 {
      assert a + b == b;
    } else {
      assert (a + b)[1..] == a[1..] + b;
      DropCommasAppend(a[1..], b);
    }
  }

  /** The pass only deletes commas: every other character survives, in order,
      and what is left is a subsequence of the line. */
  lemma {:induction false} StripOnlyDeletesCommas(s: string)
    ensures DropCommas(StripDigitCommas(s)) == DropCommas(s)
    ensures IsSubsequence(StripDigitCommas(s), s)
    decreases |s|
  {
    if |s| > 0 {
      if DigitCommaDigitAt(s, 0) {
        var rest := StripDigitCommas(s[3..]);
        StripOnlyDeletesCommas(s[3..]);
        DropCommasAppend([s[0], s[2]], rest);
        assert DropCommas([s[0], s[2]]) == [s[0], s[2]] by {
          assert [s[0], s[2]][1..] == [s[2]];
          assert [s[2]][1..] == [];
        }
        assert s == [s[0], s[1], s[2]] + s[3..];
        DropCommasAppend([s[0], s[1], s[2]], s[3..]);
        assert DropCommas([s[0], s[1], s[2]]) == [s[0], s[2]] by {
          assert [s[0], s[1], s[2]][1..] == [s[1], s[2]];
          assert [s[1], s[2]][1..] == [s[2]];
          assert [s[2]][1..] == [];
        }
        var r := [s[0], s[2]] + rest;
        assert r[1..] == [s[2]] + rest;
        assert ([s[2]] + rest)[1..] == rest;
        assert s[1..][1..] == s[2..] && s[2..][1..] == s[3..];
        assert IsSubsequence([s[2]] + rest, s[2..]);
        assert IsSubsequence([s[2]] + rest, s[1..]);
      } else {
        var rest := StripDigitCommas(s[1..]);
        StripOnlyDeletesCommas(s[1..]);
        DropCommasAppend([s[0]], rest);
        assert ([s[0]] + rest)[1..] == rest;
      }
    }
  }

  /** Without a match at the start, the matches are those of the tail. */
  lemma HasDigitCommaDigitTail(s: string)
    requires |s| > 0 && !DigitCommaDigitAt(s, 0)
    ensures HasDigitCommaDigit(s) <==> HasDigitCommaDigit(s[1..])
  {
    if HasDigitCommaDigit(s) {
      var i :| 0 <= i < |s| && DigitCommaDigitAt(s, i);
      assert s[1..][i - 1] == s[i] && s[1..][i] == s[i + 1] && s[1..][i + 1] == s[i + 2];
      assert DigitCommaDigitAt(s[1..], i - 1);
    }
    if HasDigitCommaDigit(s[1..]) {
      var i :| 0 <= i < |s[1..]| && DigitCommaDigitAt(s[1..], i);
      assert s[1..][i] == s[i + 1] && s[1..][i + 1] == s[i + 2] && s[1..][i + 2] == s[i + 3];
      assert DigitCommaDigitAt(s, i + 1);
    }
  }

  /** The pass changes the line exactly when the line has a digit-comma-digit
      triple, and then it shortens it. */
  lemma {:induction false} StripUnchanged(s: string)
    ensures StripDigitCommas(s) == s <==> !HasDigitCommaDigit(s)
    ensures HasDigitCommaDigit(s) ==> |StripDigitCommas(s)| < |s|
    decreases |s|
  {
    if |s| == 0 {
      assert !DigitCommaDigitAt(s, 0);
    } else if DigitCommaDigitAt(s, 0) {
    } else {
      StripUnchanged(s[1..]);
      HasDigitCommaDigitTail(s);
      assert s == [s[0]] + s[1..];
    }
  }

  lemma StripFirst(s: string)
    requires |s| > 0
    ensures StripDigitCommas(s)[0] == s[0]
  {
  }

  /** Text without a digit at its start is copied one character at a time. */
  lemma StripCopies(t: string)
    requires |t| > 0 && !IsDigit(t[0])
    ensures StripDigitCommas(t) == [t[0]] + StripDigitCommas(t[1..])
  {
  }

  /** The stripped text starts with "aet" only where the original did. */
  lemma StripKeepsAet(t: string)
    requires |StripDigitCommas(t)| >= 3
    ensures StripDigitCommas(t)[0] == 'a' && StripDigitCommas(t)[1] == 'e' && StripDigitCommas(t)[2] == 't' ==>
              |t| >= 3 && t[0] == 'a' && t[1] == 'e' && t[2] == 't'
  {
    if StripDigitCommas(t)[0] == 'a' && StripDigitCommas(t)[1] == 'e' && StripDigitCommas(t)[2] == 't' {
      StripFirst(t);
      StripCopies(t);
      var t1 := t[1..];
      assert StripDigitCommas(t1)[0] == 'e';
      StripFirst(t1);
      StripCopies(t1);
      var t2 := t1[1..];
      assert t2 == t[2..];
      assert StripDigitCommas(t2)[0] == 't';
      StripFirst(t2);
    }
  }

  /** A text without the typo has none in any suffix. */
  lemma NoTypoInSuffix(s: string, k: nat)
    requires !HasTypo(s) && k <= |s|
    ensures !HasTypo(s[k..])
  {
    forall j | 0 <= j < |s[k..]|
      ensures !TypoAt(s[k..], j)
    {
      TypoAfterPrefix(s[..k], s[k..], j + k);
      assert s[..k] + s[k..] == s;
    }
  }

  /** Deleting commas between digits never forms the typo. */
  lemma {:induction false} StripKeepsTypoAbsent(s: string)
    requires !HasTypo(s)
    ensures !HasTypo(StripDigitCommas(s))
    decreases |s|
  {
    var r := StripDigitCommas(s);
    if |s| == 0 {
    } else if DigitCommaDigitAt(s, 0) {
      var rest := StripDigitCommas(s[3..]);
      NoTypoInSuffix(s, 3);
      StripKeepsTypoAbsent(s[3..]);
      assert r == [s[0], s[2]] + rest;
      forall i | 0 <= i < |r|
        ensures !TypoAt(r, i)
      {
        if i >= 2 {
          TypoAfterPrefix([s[0], s[2]], rest, i);
        } else {
          assert r[i] == [s[0], s[2]][i];
        }
      }
    } else {
      var rest := StripDigitCommas(s[1..]);
      NoTypoInSuffix(s, 1);
      StripKeepsTypoAbsent(s[1..]);
      assert r == [s[0]] + rest;
      assert !TypoAt(s, 0);
      forall i | 0 <= i < |r|
        ensures !TypoAt(r, i)
      {
        if i >= 1 {
          TypoAfterPrefix([s[0]], rest, i);
        } else if |r| >= 4 {
          assert rest[0] == r[1] && rest[1] == r[2] && rest[2] == r[3];
          StripKeepsAet(s[1..]);
          assert s[1..][0] == s[1] && s[1..][1] == s[2] && s[1..][2] == s[3];
        }
      }
    }
  }

  // ---------------------------------------------------------------------------
  // The whole line transform
  // ---------------------------------------------------------------------------

  /** The two substitutions of `clean_up_file`, in order. */
  function Repair(line: string): (r: string)
    ensures |r| <= |line|
  {
    StripDigitCommas(FixTypo(line))
  }

  /** A line comes back unchanged exactly when it has neither the typo nor a
      digit-comma-digit triple. */
  lemma RepairUnchanged(line: string)
    ensures Repair(line) == line <==> !HasTypo(line) && !HasDigitCommaDigit(line)
  {
    var fixed := FixTypo(line);
    FixTypoUnchanged(line);
    StripUnchanged(fixed);
    if Repair(line) == line {
      assert fixed == line;
    }
  }

  /** A repaired line never carries the typo. */
  lemma RepairRemovesTypo(line: string)
    ensures !HasTypo(Repair(line))
  {
    FixTypoRemovesTypo(line);
    StripKeepsTypoAbsent(FixTypo(line));
  }

  /** Apart from the typo fix, the repair only deletes commas. */
  lemma RepairOnlyDeletesCommas(line: string)
    ensures DropCommas(Repair(line)) == DropCommas(FixTypo(line))
    ensures IsSubsequence(Repair(line), FixTypo(line))
  {
    StripOnlyDeletesCommas(FixTypo(line));
  }

  /** Before the first match the pass copies the text as it is. */
  lemma {:induction false} StripCopiesPrefix(s: string, k: nat)
    requires k <= |s|
    requires forall i | 0 <= i < k :: !DigitCommaDigitAt(s, i)
    ensures StripDigitCommas(s) == s[..k] + StripDigitCommas(s[k..])
    decreases k
  {
    if k > 0 {
      NoMatchInPrefixTail(s, k);
      StripCopiesPrefix(s[1..], k - 1);
      StripCopyFirst(s);
      assert s[1..][k - 1..] == s[k..];
      assert s[..k] == [s[0]] + s[1..][..k - 1];
    }
  }

  /** Without a match at the start, the first character is copied. */
  lemma StripCopyFirst(s: string)
    requires |s| > 0 && !DigitCommaDigitAt(s, 0)
    ensures StripDigitCommas(s) == [s[0]] + StripDigitCommas(s[1..])
  {
  }

  /** No match among the first k positions leaves none among the first k - 1
      positions of the tail. */
  lemma NoMatchInPrefixTail(s: string, k: nat)
    requires 0 < k <= |s|
    requires forall i | 0 <= i < k :: !DigitCommaDigitAt(s, i)
    ensures forall i | 0 <= i < k - 1 :: !DigitCommaDigitAt(s[1..], i)
  {
    forall i | 0 <= i < k - 1
      ensures !DigitCommaDigitAt(s[1..], i)
    {
      assert !DigitCommaDigitAt(s, i + 1);
      if i + 3 <= |s[1..]| {
        assert s[1..][i] == s[i + 1] && s[1..][i + 1] == s[i + 2] && s[1..][i + 2] == s[i + 3];
      }
    }
  }

  /** Text without a `d` holds no typo. */
  lemma NoTypoWithoutD(s: string)
    requires 'd' !in s
    ensures !HasTypo(s)
  {
    forall i | 0 <= i < |s|
      ensures !TypoAt(s, i)
    {
      assert s[i] in s;
    }
  }

  /** Text without a digit holds no digit-comma-digit triple. */
  lemma NoMatchWithoutDigits(s: string)
    requires forall i | 0 <= i < |s| :: !IsDigit(s[i])
    ensures !HasDigitCommaDigit(s)
  {
  }

  // ---------------------------------------------------------------------------
  // Worked examples
  // ---------------------------------------------------------------------------

  /** The digit groups of a number written with thousands separators, each
      after its comma. */
  function WithCommas(groups: seq<string>): string
  {
    if |groups| == 0 then "" else [','] + groups[0] + WithCommas(groups[1..])
  }

  function Concat(groups: seq<string>): string
  {
    if |groups| == 0 then "" else groups[0] + Concat(groups[1..])
  }

  /** Digit groups written with their commas hold nothing but digits and
      commas. */
  lemma {:induction false} WithCommasChars(groups: seq<string>)
    requires forall k | 0 <= k < |groups| :: AllDigits(groups[k])
    ensures forall i | 0 <= i < |WithCommas(groups)| :: WithCommas(groups)[i] == ',' || IsDigit(WithCommas(groups)[i])
    decreases |groups|
  {
    if |groups| > 0 {
      var g, rest := groups[0], WithCommas(groups[1..]);
      assert forall k | 0 <= k < |groups[1..]| :: groups[1..][k] == groups[k + 1];
      WithCommasChars(groups[1..]);
      var w := [','] + g + rest;
      forall i | 0 <= i < |w|
        ensures w[i] == ',' || IsDigit(w[i])
      {
        if 1 <= i < 1 + |g| {
          assert w[i] == g[i - 1];
        } else if 1 + |g| <= i {
          assert w[i] == rest[i - 1 - |g|];
        }
      }
    }
  }

  /** A number grouped with separators whose groups after the first have at
      least two digits (three, for thousands) loses every separator in the one
      pass: each match consumes a group's first digit, and the scan resumes
      inside the group, before the next comma. */
  lemma {:induction false} StripGroupedNumber(lead: string, groups: seq<string>)
    requires |lead| > 0 && AllDigits(lead)
    requires forall k | 0 <= k < |groups| :: |groups[k]| >= 2 && AllDigits(groups[k])
    ensures StripDigitCommas(lead + WithCommas(groups)) == lead + Concat(groups)
    decreases |groups|
  {
    if |groups| == 0 {
      DigitsUnchanged(lead);
      assert lead + WithCommas(groups) == lead && lead + Concat(groups) == lead;
    } else {
      var g, gs := groups[0], groups[1..];
      var rest := WithCommas(gs);
      assert lead + WithCommas(groups) == lead + ([','] + g + rest);
      StripAfterDigits(lead, g, rest);
      assert forall k | 0 <= k < |gs| :: gs[k] == groups[k + 1];
      StripGroupedNumber(g[1..], gs);
      PrependHead(lead, g, Concat(gs));
    }
  }

  lemma PrependHead(lead: string, g: string, u: string)
    requires |g| > 0
    ensures lead + [g[0]] + (g[1..] + u) == lead + (g + u)
  {
    assert [g[0]] + g[1..] == g;
  }

  /** Digits alone are left as they are. */
  lemma DigitsUnchanged(s: string)
    requires AllDigits(s)
    ensures StripDigitCommas(s) == s
  {
    forall i | 0 <= i < |s|
      ensures !DigitCommaDigitAt(s, i)
    {
      if i + 3 <= |s| {
        assert IsDigit(s[i + 1]);
      }
    }
    StripUnchanged(s);
  }

  /** A comma after a run of digits and before a digit is the first match;
      the scan resumes after that digit. */
  lemma StripAfterDigits(lead: string, g: string, rest: string)
    requires |lead| > 0 && AllDigits(lead) && |g| > 0 && IsDigit(g[0])
    ensures StripDigitCommas(lead + ([','] + g + rest)) == lead + [g[0]] + StripDigitCommas(g[1..] + rest)
  {
    var n := |lead|;
    var w := g + rest;
    assert [','] + g + rest == [','] + w;
    CopyDigitRun(lead, w);
    MatchDigitComma(lead[n - 1], w);
    assert w[0] == g[0] && w[1..] == g[1..] + rest;
    JoinAroundLast(lead, g[0], StripDigitCommas(g[1..] + rest));
  }

  lemma MatchDigitComma(x: char, w: string)
    requires IsDigit(x) && |w| > 0 && IsDigit(w[0])
    ensures StripDigitCommas([x, ','] + w) == [x, w[0]] + StripDigitCommas(w[1..])
  {
    PairThen(x, ',', w);
    StripMatchFirst([x, ','] + w);
  }

  lemma PairThen(x: char, c: char, w: string)
    requires |w| > 0
    ensures ([x, c] + w)[0] == x && ([x, c] + w)[1] == c && ([x, c] + w)[2] == w[0]
    ensures ([x, c] + w)[3..] == w[1..]
  {
  }

  /** With a match at the start, its two digits are kept and the scan resumes
      after them. */
  lemma StripMatchFirst(t: string)
    requires DigitCommaDigitAt(t, 0)
    ensures StripDigitCommas(t) == [t[0], t[2]] + StripDigitCommas(t[3..])
  {
  }

  lemma JoinAroundLast(lead: string, c: char, u: string)
    requires |lead| > 0
    ensures lead[..|lead| - 1] + ([lead[|lead| - 1], c] + u) == lead + [c] + u
  {
    assert lead[..|lead| - 1] + [lead[|lead| - 1]] == lead;
  }

  /** Before the comma that follows a run of digits, the digits are copied. */
  lemma CopyDigitRun(lead: string, w: string)
    requires |lead| > 0 && AllDigits(lead)
    ensures StripDigitCommas(lead + ([','] + w)) == lead[..|lead| - 1] + StripDigitCommas([lead[|lead| - 1], ','] + w)
  {
    var n := |lead|;
    var s := lead + ([','] + w);
    forall i | 0 <= i < n - 1
      ensures !DigitCommaDigitAt(s, i)
    {
      assert s[i + 1] == lead[i + 1];
    }
    StripCopiesPrefix(s, n - 1);
    assert s[..n - 1] == lead[..n - 1];
    assert s[n - 1..] == [lead[n - 1], ','] + w;
  }

  /** So the repair turns a grouped number into its plain digits
      (`1,234,567` into `1234567`). */
  lemma RepairGroupedNumber(lead: string, groups: seq<string>)
    requires |lead| > 0 && AllDigits(lead)
    requires forall k | 0 <= k < |groups| :: |groups[k]| >= 2 && AllDigits(groups[k])
    ensures Repair(lead + WithCommas(groups)) == lead + Concat(groups)
  {
    var s := lead + WithCommas(groups);
    WithCommasChars(groups);
    forall i | 0 <= i < |s|
      ensures s[i] != 'd'
    {
      if i < |lead| {
        assert s[i] == lead[i];
      } else {
        assert s[i] == WithCommas(groups)[i - |lead|];
      }
    }
    NoTypoWithoutD(s);
    FixTypoUnchanged(s);
    StripGroupedNumber(lead, groups);
  }

  /** The pass is not repeated to a fixpoint: in `1,2,3` the second digit of
      the first match cannot start another, so one comma survives, and a
      second repair would still change the line. */
  lemma RepairSinglePass(x: char, y: char, z: char)
    requires IsDigit(x) && IsDigit(y) && IsDigit(z)
    ensures Repair([x, ',', y, ',', z]) == [x, y, ',', z]
    ensures Repair([x, y, ',', z]) == [x, y, z]
  {
    var a, b := [x, ',', y, ',', z], [x, y, ',', z];
    NoTypoWithoutD(a);
    FixTypoUnchanged(a);
    NoTypoWithoutD(b);
    FixTypoUnchanged(b);
    assert DigitCommaDigitAt(a, 0) && a[3..] == [',', z];
    assert StripDigitCommas([',', z]) == [',', z];
    assert !DigitCommaDigitAt(b, 0) && b[1..] == [y, ',', z];
    assert StripDigitCommas([y, ',', z]) == [y, z];
  }

  /** The pass does not know where fields end: when a comma delimiter has a
      digit on both sides (a field ending in a digit, then one starting with
      one, as in `0.8,12`), it is deleted and the two fields fuse. */
  lemma UnspacedNumericFieldsFuse(a: string, b: string)
    requires |a| > 0 && IsDigit(a[|a| - 1]) && |b| > 0 && IsDigit(b[0])
    requires !HasDigitCommaDigit(a) && !HasDigitCommaDigit(b)
    ensures StripDigitCommas(a + [','] + b) == a + b
  {
    var n := |a|;
    calc {
      StripDigitCommas(a + [','] + b);
      { CopyBeforeLast(a, b); }
      a[..n - 1] + StripDigitCommas([a[n - 1], ','] + b);
      { MatchDigitComma(a[n - 1], b); }
      a[..n - 1] + ([a[n - 1], b[0]] + StripDigitCommas(b[1..]));
      { NoMatchInTail(b); StripUnchanged(b[1..]); }
      a[..n - 1] + ([a[n - 1], b[0]] + b[1..]);
      { JoinAroundLast(a, b[0], b[1..]); }
      a + [b[0]] + b[1..];
      { assert [b[0]] + b[1..] == b; }
      a + b;
    }
  }

  /** Up to its last character, a field without a match is copied. */
  lemma CopyBeforeLast(a: string, b: string)
    requires |a| > 0 && !HasDigitCommaDigit(a)
    ensures StripDigitCommas(a + [','] + b) == a[..|a| - 1] + StripDigitCommas([a[|a| - 1], ','] + b)
  {
    var n := |a|;
    var s := a + [','] + b;
    forall i | 0 <= i < n - 1
      ensures !DigitCommaDigitAt(s, i)
    {
      if i + 3 <= n {
        assert s[i] == a[i] && s[i + 1] == a[i + 1] && s[i + 2] == a[i + 2];
        assert !DigitCommaDigitAt(a, i);
      } else {
        assert s[i + 1] == a[n - 1];
      }
    }
    StripCopiesPrefix(s, n - 1);
    assert s[..n - 1] == a[..n - 1];
    assert s[n - 1..] == [a[n - 1], ','] + b;
  }

  lemma NoMatchInTail(b: string)
    requires |b| > 0 && !HasDigitCommaDigit(b)
    ensures !HasDigitCommaDigit(b[1..])
  {
    forall i | 0 <= i < |b[1..]|
      ensures !DigitCommaDigitAt(b[1..], i)
    {
      if i + 3 <= |b[1..]| {
        assert b[1..][i] == b[i + 1] && b[1..][i + 1] == b[i + 2] && b[1..][i + 2] == b[i + 3];
        assert !DigitCommaDigitAt(b, i + 1);
      }
    }
  }

  /** With a blank after every comma, as in the message files' `, `-separated
      layout, no delimiter is ever part of a match, so the pass keeps every
      field apart. */
  lemma SpacedDelimitersKept(s: string)
    requires forall i | 0 <= i < |s| :: s[i] == ',' ==> i + 1 < |s| && s[i + 1] == ' '
    ensures StripDigitCommas(s) == s
  {
    forall i | 0 <= i < |s|
      ensures !DigitCommaDigitAt(s, i)
    {
      if i + 3 <= |s| && s[i + 1] == ',' {
        assert s[i + 2] == ' ';
      }
    }
    StripUnchanged(s);
  }

  /** The misspelt header is corrected and otherwise left alone. */
  lemma RepairHeader()
    ensures Repair("daet,ticker,positive,tweets") == "date,ticker,positive,tweets"
  {
    HeaderTypoFixed();
    HeaderHasNoDigitCommas();
  }

  lemma HeaderTypoFixed()
    ensures FixTypo("daet,ticker,positive,tweets") == "date,ticker,positive,tweets"
  {
    HeaderStartsWithTypo();
    HeaderTailUnchanged();
    FixTypoAtStart("daet,ticker,positive,tweets");
    HeaderCorrected();
  }

  lemma FixTypoAtStart(s: string)
    requires TypoAt(s, 0)
    ensures FixTypo(s) == Correction + FixTypo(s[4..])
  {
  }

  lemma HeaderStartsWithTypo()
    ensures TypoAt("daet,ticker,positive,tweets", 0)
    ensures "daet,ticker,positive,tweets"[4..] == ",ticker,positive,tweets"
  {
  }

  lemma HeaderTailUnchanged()
    ensures FixTypo(",ticker,positive,tweets") == ",ticker,positive,tweets"
  {
    NoTypoWithoutD(",ticker,positive,tweets");
    FixTypoUnchanged(",ticker,positive,tweets");
  }

  lemma HeaderCorrected()
    ensures Correction + ",ticker,positive,tweets" == "date,ticker,positive,tweets"
  {
  }

  lemma HeaderHasNoDigitCommas()
    ensures StripDigitCommas("date,ticker,positive,tweets") == "date,ticker,positive,tweets"
  {
    var s := "date,ticker,positive,tweets";
    assert forall i | 0 <= i < |s| :: !IsDigit(s[i]);
    NoMatchWithoutDigits(s);
    StripUnchanged(s);
  }
}

=== FILE: pipeline.dfy ===
/** The body of `run` (main.py:73-156): build the price table and the message
    table, merge them, store the result, then answer the queries. The
    contents of the price file and of the message files (in the order the
    directory walk visits them) are parameters; reading and writing files,
    and the per-line repair applied to each message file beforehand, happen
    outside this model's data flow. */
module Pipeline {
  import opened Wrappers
  import opened Text
  import opened Dates
  import opened Strptime
  import opened Tables
  import opened DateDetection
  import opened Store
  import opened Cli

  /** A price-file row as the CSV reader gives it, the date still text. */
  datatype RawPriceRow = RawPriceRow(ticker: string, dateText: string, prices: Prices)

  datatype RunError =
    | PriceDate(row: nat)                     // a price date `%Y-%m-%d` rejects
    | MessageLoad(file: nat, cause: LoadError) // a message file that cannot be read
    | NoSuchTable                             // a query without a stored table

  // ---------------------------------------------------------------------------
  // The price table (main.py:77-86)
  // ---------------------------------------------------------------------------

  /** `row` is `raw` with its date text parsed by `parse`. */
  predicate ParsedFrom(raw: RawPriceRow, row: PriceRow, parse: string -> Option<Date>) {
    && Some(row.key.date) == parse(raw.dateText)
    && row.key.ticker == raw.ticker
    && row.prices == raw.prices
  }

  /** `pandas.to_datetime(column, format=date_fmt)` on the price dates: every
      date parsed, or the first row that fails. `parse` is the parser of the
      format; the build passes `Strptime.ParseIso`. */
  function ParsePrices(rows: seq<RawPriceRow>, parse: string -> Option<Date>): (r: Result<seq<PriceRow>, RunError>)
    ensures r.Ok? <==> forall i | 0 <= i < |rows| :: parse(rows[i].dateText).Some?
    ensures r.Ok? ==> |r.value| == |rows| && forall i | 0 <= i < |rows| :: ParsedFrom(rows[i], r.value[i], parse)
    ensures r.Err? ==> r.error.PriceDate? && r.error.row < |rows| && parse(rows[r.error.row].dateText).None?
  {
    if |rows| == 0 then Ok([])
    else if parse(rows[0].dateText).None? then Err(PriceDate(0))
    else
      var tail := ParsePrices(rows[1..], parse);
      if tail.Err? then
        assert rows[1..][tail.error.row] == rows[tail.error.row + 1];
        Err(PriceDate(tail.error.row + 1))
      else
        var first := PriceRow(Key(rows[0].ticker, parse(rows[0].dateText).value), rows[0].prices);
        assert forall i | 1 <= i < |rows| :: rows[i] == rows[1..][i - 1];
        Ok([first] + tail.value)
  }

  /** The price table, parsed with `%Y-%m-%d` and sorted by (ticker, date). */
  function BuildPriceTable(rows: seq<RawPriceRow>): (r: Result<seq<PriceRow>, RunError>)
    ensures r.Ok? ==> SortedBy(r.value, PriceKey)
    ensures r.Ok? ==> ParsePrices(rows, ParseIso).Ok? && multiset(r.value) == multiset(ParsePrices(rows, ParseIso).value)
    ensures r.Err? <==> ParsePrices(rows, ParseIso).Err?
  {
    var parsed :- ParsePrices(rows, ParseIso);
    Ok(SortByKey(parsed, PriceKey))
  }

  // ---------------------------------------------------------------------------
  // The message table (main.py:87-116)
  // ---------------------------------------------------------------------------

  /** The message files read one after the other and concatenated, or the
      first file that cannot be read. `alternate` is the parser of the
      alternate date format. */
  function LoadAll(files: seq<seq<RawRow>>, alternate: string -> Option<Date>): (r: Result<seq<SmsRow>, RunError>)
    ensures r.Ok? <==> forall k | 0 <= k < |files| :: LoadMessageFile(files[k], alternate).Ok?
    ensures r.Err? ==>
              && r.error.MessageLoad? && r.error.file < |files|
              && LoadMessageFile(files[r.error.file], alternate) == Err(r.error.cause)
              && forall k | 0 <= k < r.error.file :: LoadMessageFile(files[k], alternate).Ok?
    ensures r.Ok? && ValidParser(alternate) ==> forall i | 0 <= i < |r.value| :: IsValid(r.value[i].key.date)
    decreases |files|
  {
    if |files| == 0 then Ok([])
    else
      var init := files[..|files| - 1];
      assert forall k | 0 <= k < |init| :: init[k] == files[k];
      match LoadAll(init, alternate)
      case Err(e) => Err(e)
      case Ok(before) =>
        match LoadMessageFile(files[|files| - 1], alternate)
        case Err(e) => Err(MessageLoad(|files| - 1, e))
        case Ok(rows) => Ok(before + rows)
  }

  /** The rows of each file, when every file loads. */
  function Loaded(files: seq<seq<RawRow>>, alternate: string -> Option<Date>): (parts: seq<seq<SmsRow>>)
    requires forall k | 0 <= k < |files| :: LoadMessageFile(files[k], alternate).Ok?
    ensures |parts| == |files|
  {
    seq(|files|, k requires 0 <= k < |files| => LoadMessageFile(files[k], alternate).value)
  }

  /** When every file loads, the loaded table is the files' rows in file
      order. */
  lemma {:induction false} LoadAllIsConcatenation(files: seq<seq<RawRow>>, alternate: string -> Option<Date>)
    requires LoadAll(files, alternate).Ok?
    ensures LoadAll(files, alternate).value == Flatten(Loaded(files, alternate))
    decreases |files|
  {
    if |files| > 0 {
      var init := files[..|files| - 1];
      var last := LoadMessageFile(files[|files| - 1], alternate).value;
      LoadAllIsConcatenation(init, alternate);
      assert Loaded(files, alternate) == Loaded(init, alternate) + [last];
      FlattenSnoc(Loaded(init, alternate), last);
    }
  }

  /** The loop of main.py:88-109: each file is loaded, appended, and the
      accumulated table cleaned of rows without a tweet count; a file that
      cannot be read stops the build. The result is the cleaned
      concatenation of all files. */
  method CollectMessages(files: seq<seq<RawRow>>, alternate: string -> Option<Date>)
    returns (r: Result<seq<SmsRow>, RunError>)
    ensures LoadAll(files, alternate).Err? ==> r == LoadAll(files, alternate)
    ensures LoadAll(files, alternate).Ok? ==> r == Ok(DropNullTweets(LoadAll(files, alternate).value))
  {
    var acc: seq<SmsRow> := [];
    var k := 0;
    while k < |files|
      invariant 0 <= k <= |files|
      invariant LoadAll(files[..k], alternate).Ok?
      invariant acc == DropNullTweets(LoadAll(files[..k], alternate).value)
    {
      assert files[..k + 1][..k] == files[..k];
      var loaded := LoadMessageFile(files[k], alternate);
      if loaded.Err? {
        r := Err(MessageLoad(k, loaded.error));
        PrefixErrorIsFinal(files, k + 1, alternate);
        return;
      }
      CleanAfterAppend(LoadAll(files[..k], alternate).value, loaded.value);
      acc := DropNullTweets(acc + loaded.value);
      k := k + 1;
    }
    assert files[..k] == files;
    r := Ok(acc);
  }

  /** Once a prefix of the files fails to load, so do all the files. */
  lemma {:induction false} PrefixErrorIsFinal(files: seq<seq<RawRow>>, k: nat, alternate: string -> Option<Date>)
    requires k <= |files| && LoadAll(files[..k], alternate).Err?
    ensures LoadAll(files, alternate) == LoadAll(files[..k], alternate)
    decreases |files|
  {
    if k == |files| {
      assert files[..k] == files;
    } else {
      var init := files[..|files| - 1];
      assert init[..k] == files[..k];
      PrefixErrorIsFinal(init, k, alternate);
    }
  }

  /** The typed, cleaned, indexed and sorted message table of
      main.py:110-116, defined on the whole concatenation. */
  function MessageTable(files: seq<seq<RawRow>>, alternate: string -> Option<Date>): (r: seq<SmsRow>)
    requires LoadAll(files, alternate).Ok?
    ensures SortedBy(r, SmsKey)
    ensures multiset(r) == multiset(DropNullTweets(LoadAll(files, alternate).value))
    ensures forall i | 0 <= i < |r| :: r[i].tweets.Some?
    ensures ValidParser(alternate) ==> forall i | 0 <= i < |r| :: IsValid(r[i].key.date)
  {
    var cleaned := DropNullTweets(LoadAll(files, alternate).value);
    var sorted := SortByKey(cleaned, SmsKey);
    assert forall i | 0 <= i < |sorted| :: sorted[i] in multiset(cleaned) by {
      forall i | 0 <= i < |sorted|
        ensures sorted[i] in multiset(cleaned)
      {
        assert sorted[i] in multiset(sorted);
      }
    }
    sorted
  }

  /** The message table as the loop builds it: the same table as cleaning
      and sorting the whole concatenation once. */
  method BuildMessageTable(files: seq<seq<RawRow>>, alternate: string -> Option<Date>)
    returns (r: Result<seq<SmsRow>, RunError>)
    ensures LoadAll(files, alternate).Err? ==> r == LoadAll(files, alternate)
    ensures LoadAll(files, alternate).Ok? ==> r == Ok(MessageTable(files, alternate))
  {
    var collected := CollectMessages(files, alternate);
    if collected.Err? {
      return collected;
    }
    r := Ok(SortByKey(collected.value, SmsKey));
  }

  // ---------------------------------------------------------------------------
  // The build and the queries
  // ---------------------------------------------------------------------------

  /** What a build leaves behind: the stored table and the record count it
      reports. */
  datatype Built = Built(table: seq<StoredRow>, count: nat)

  /** The table `to_sql` writes for a message table and a price table: their
      left merge, stored row by row. */
  function StoredMerge(msgs: seq<SmsRow>, prices: seq<PriceRow>): (t: seq<StoredRow>)
    requires forall i | 0 <= i < |msgs| :: IsValid(msgs[i].key.date)
    ensures |t| == |LeftMerge(msgs, prices)|
  {
    var merged := LeftMerge(msgs, prices);
    LeftMergeRows(msgs, prices);
    assert ValidDates(merged) by {
      forall i | 0 <= i < |merged|
        ensures IsValid(merged[i].key.date)
      {
        var j :| 0 <= j < |msgs| && CarriesMessage(merged[i], msgs[j]);
      }
    }
    Persist(merged)
  }

  /** The build of main.py:76-134: prices first, then messages, then the left
      merge, stored as the new table. */
  method Build(priceRows: seq<RawPriceRow>, files: seq<seq<RawRow>>, alternate: string -> Option<Date>)
    returns (r: Result<Built, RunError>)
    requires ValidParser(alternate)
    ensures r.Ok? <==> BuildPriceTable(priceRows).Ok? && LoadAll(files, alternate).Ok?
    ensures BuildPriceTable(priceRows).Err? ==> r == Err(BuildPriceTable(priceRows).error)
    ensures BuildPriceTable(priceRows).Ok? && LoadAll(files, alternate).Err? ==>
              r == Err(LoadAll(files, alternate).error)
    ensures r.Ok? ==> r.value.table == StoredMerge(MessageTable(files, alternate), BuildPriceTable(priceRows).value)
    ensures r.Ok? ==> r.value.count == |r.value.table| >= |DropNullTweets(LoadAll(files, alternate).value)|
    ensures r.Ok? && UniqueKeys(BuildPriceTable(priceRows).value) ==>
              r.value.count == |DropNullTweets(LoadAll(files, alternate).value)|
    ensures r.Ok? ==> forall i | 0 <= i < |r.value.table| :: r.value.table[i].tweets.Some?
  {
    var prices := BuildPriceTable(priceRows);
    if prices.Err? {
      return Err(prices.error);
    }
    var msgs := BuildMessageTable(files, alternate);
    if msgs.Err? {
      return Err(msgs.error);
    }
    var merged := LeftMerge(msgs.value, prices.value);
    LeftMergeRows(msgs.value, prices.value);
    var table := StoredMerge(msgs.value, prices.value);
    forall i | 0 <= i < |table|
      ensures table[i].tweets.Some?
    {
      var j :| 0 <= j < |msgs.value| && CarriesMessage(merged[i], msgs.value[j]);
    }
    MultisetLength(msgs.value, DropNullTweets(LoadAll(files, alternate).value));
    if UniqueKeys(prices.value) {
      LeftMergeUnique(msgs.value, prices.value);
    }
    r := Ok(Built(table, |merged|));
  }

  lemma MultisetLength<T>(a: seq<T>, b: seq<T>)
    requires multiset(a) == multiset(b)
    ensures |a| == |b|
  {
    assert |multiset(a)| == |a| && |multiset(b)| == |b|;
  }

  /** What a run prints besides its log: the build's record count, the rows of
      a date query, and the rows and table size of a ticker query. */
  datatype Output = Output(
    count: Option<nat>,
    dateRows: Option<seq<StoredRow>>,
    tickerReport: Option<TickerReport>)

  /** The queries of main.py:141-155 against the stored table, if there is
      one; a query without a table fails as SQLite reports a missing table. */
  function Query(table: Option<seq<StoredRow>>, args: Args): (r: Result<Output, RunError>)
    requires args.dquery.Some? ==> IsValid(args.dquery.value)
    requires args.tquery.Some? ==> IsValid(args.tquery.value.start) && IsValid(args.tquery.value.end)
    ensures r.Err? <==> table.None? && (args.dquery.Some? || args.tquery.Some?)
    ensures r.Ok? ==> r.value.count.None?
    ensures r.Ok? ==> (r.value.dateRows.Some? <==> args.dquery.Some?)
    ensures r.Ok? && args.dquery.Some? ==>
              && IsSubsequence(r.value.dateRows.value, table.value)
              && forall x :: multiset(r.value.dateRows.value)[x] ==
                   if x.dateText == Iso(args.dquery.value) then multiset(table.value)[x] else 0
    ensures r.Ok? ==> (r.value.tickerReport.Some? <==> args.tquery.Some?)
    ensures r.Ok? && args.tquery.Some? ==>
              && r.value.tickerReport.value.total == |table.value|
              && IsSubsequence(r.value.tickerReport.value.rows, table.value)
              && forall x :: multiset(r.value.tickerReport.value.rows)[x] ==
                   if InRangeText(x, args.tquery.value) then multiset(table.value)[x] else 0
  {
    if table.None? then
      if args.dquery.Some? || args.tquery.Some? then Err(NoSuchTable) else Ok(Output(None, None, None))
    else
      var dateRows := if args.dquery.Some? then DateQueryRows(table.value, args.dquery.value); Some(DateQuery(table.value, args.dquery.value)) else None;
      var report := if args.tquery.Some? then Some(TickerQueryReport(table.value, args.tquery.value)) else None;
      Ok(Output(None, dateRows, report))
  }

  /** The whole of `run`: a build when the price file is given (the build
      replaces any earlier table), then the queries against the table that is
      now stored. The message files are read with the alternate format as the
      script writes it, `%Y%M%d`. */
  method Run(args: Args, stored: Option<seq<StoredRow>>, priceRows: seq<RawPriceRow>, files: seq<seq<RawRow>>)
    returns (r: Result<Output, RunError>, table: Option<seq<StoredRow>>)
    requires args.dquery.Some? ==> IsValid(args.dquery.value)
    requires args.tquery.Some? ==> IsValid(args.tquery.value.start) && IsValid(args.tquery.value.end)
    ensures args.priceData.None? ==> table == stored && r == Query(stored, args)
    ensures args.priceData.Some? ==> (r.Ok? <==> BuildPriceTable(priceRows).Ok? && LoadAll(files, ParseMinuteForm).Ok?)
    ensures args.priceData.Some? && r.Err? ==> table == stored
    ensures args.priceData.Some? && r.Ok? ==> table.Some? && r.value.count == Some(|table.value|)
    ensures args.priceData.Some? && r.Ok? ==> r == Ok(Query(table, args).value.(count := Some(|table.value|)))
    ensures args.priceData.Some? && r.Ok? ==>
              && BuildPriceTable(priceRows).Ok? && LoadAll(files, ParseMinuteForm).Ok?
              && table == Some(StoredMerge(MessageTable(files, ParseMinuteForm), BuildPriceTable(priceRows).value))
    ensures r.Ok? && args.tquery.Some? ==>
              table.Some? && r.value.tickerReport.Some? && r.value.tickerReport.value.total == |table.value|
  {
    table := stored;
    var count: Option<nat> := None;
    if args.priceData.Some? {
      ParsersValid();
      var built := Build(priceRows, files, ParseMinuteForm);
      if built.Err? {
        return Err(built.error), table;
      }
      table := Some(built.value.table);
      count := Some(built.value.count);
    }
    var out := Query(table, args);
    if out.Err? {
      return out, table;
    }
    r := Ok(out.value.(count := count));
  }
}

=== FILE: store.dfy ===
/** The result table `sms_price_merge` and the two queries run against it
    (main.py:132, 141-155). The merged table is written with its index, so
    each stored row holds the ticker, the date as ISO text `YYYY-MM-DD`, and
    the data columns. Both queries compare `strftime('%Y-%m-%d', date)`,
    which for stored ISO text is that text itself, with the ISO text of the
    query dates; the lemmas here show that these text comparisons select
    exactly the rows whose dates match chronologically. Rows come back in
    table order. */
module Store {
  import opened Wrappers
  import opened Text
  import opened Dates
  import opened Strptime
  import opened Tables
  import opened Cli

  /** One row of `sms_price_merge`. The five price columns are nullable SQL
      columns: a message row without a matching price row and a matching
      price row whose five cells are null are stored alike. */
  datatype StoredRow = StoredRow(
    ticker: string,
    dateText: string,
    tweets: Option<int>,
    positive: Option<Num>,
    open: Option<Num>,
    close: Option<Num>,
    high: Option<Num>,
    low: Option<Num>,
    exDividend: Option<Num>)

  predicate ValidDates(m: seq<MergedRow>) {
    forall i | 0 <= i < |m| :: IsValid(m[i].key.date)
  }

  /** Five null price cells. */
  const NoPrices := Prices(None, None, None, None, None)

  /** The price cells of a merged row: pandas fills the columns of a row
      without a match with NaN, which `to_sql` writes as NULL. */
  function Cells(p: Option<Prices>): Prices {
    if p.Some? then p.value else NoPrices
  }

  function Store(row: MergedRow): (s: StoredRow)
    requires IsValid(row.key.date)
    ensures |s.dateText| == 10
    ensures Prices(s.open, s.close, s.high, s.low, s.exDividend) == Cells(row.prices)
  {
    var c := Cells(row.prices);
    StoredRow(row.key.ticker, Iso(row.key.date), row.tweets, row.positive, c.open, c.close, c.high, c.low, c.exDividend)
  }

  /** Reading a stored row back: the date text parsed as an ISO date, and
      five null price cells read as "no price row matched". */
  function Restore(s: StoredRow): (r: Option<MergedRow>)
    ensures r.Some? ==> IsValid(r.value.key.date)
  {
    var c := Prices(s.open, s.close, s.high, s.low, s.exDividend);
    match ParseIso(s.dateText)
    case None => None
    case Some(d) => Some(MergedRow(Key(s.ticker, d), s.tweets, s.positive, if c == NoPrices then None else Some(c)))
  }

  /** What the table keeps of a merged row: a match whose five price cells
      are all null is indistinguishable from no match. */
  function Kept(row: MergedRow): MergedRow {
    if row.prices == Some(NoPrices) then row.(prices := None) else row
  }

  /** `to_sql`: the merged table written row by row, index included. */
  function Persist(m: seq<MergedRow>): (t: seq<StoredRow>)
    requires ValidDates(m)
    ensures |t| == |m|
  {
    seq(|m|, i requires 0 <= i < |m| => Store(m[i]))
  }

  /** Every stored row reads back as the merged row it was written from, up
      to the one thing the table cannot hold: whether a row of null prices
      came from a match. */
  lemma PersistRoundTrip(m: seq<MergedRow>)
    requires ValidDates(m)
    ensures forall i | 0 <= i < |m| :: Restore(Persist(m)[i]) == Some(Kept(m[i]))
  {
    forall i | 0 <= i < |m|
      ensures Restore(Persist(m)[i]) == Some(Kept(m[i]))
    {
      IsoRoundTrip(m[i].key.date);
    }
  }

  /** Two merged rows are stored alike exactly when they agree on everything
      the table keeps. */
  lemma StoreForgetsOnlyEmptyMatch(a: MergedRow, b: MergedRow)
    requires IsValid(a.key.date) && IsValid(b.key.date)
    ensures Store(a) == Store(b) <==> Kept(a) == Kept(b)
  {
    IsoInjective(a.key.date, b.key.date);
    if Store(a) == Store(b) {
      IsoRoundTrip(a.key.date);
      IsoRoundTrip(b.key.date);
      assert Restore(Store(a)) == Some(Kept(a));
      assert Restore(Store(b)) == Some(Kept(b));
    }
  }

  lemma PersistConcat(a: seq<MergedRow>, b: seq<MergedRow>)
    requires ValidDates(a) && ValidDates(b)
    ensures ValidDates(a + b)
    ensures Persist(a + b) == Persist(a) + Persist(b)
  {
    assert forall i | 0 <= i < |a + b| :: (a + b)[i] == if i < |a| then a[i] else b[i - |a|];
  }

  lemma SplitFirst<T>(s: seq<T>)
    requires |s| > 0
    ensures multiset(s) == multiset([s[0]]) + multiset(s[1..])
  {
    assert s == [s[0]] + s[1..];
  }

  // ---------------------------------------------------------------------------
  // The date query
  // ---------------------------------------------------------------------------

  /** `SELECT * ... WHERE strftime('%Y-%m-%d', date) = '<d>'`: the stored rows
      whose date text equals the ISO text of `d`, in table order. */
  function DateQuery(table: seq<StoredRow>, d: Date): (r: seq<StoredRow>)
    requires IsValid(d)
    ensures IsSubsequence(r, table)
  {
    if |table| == 0 then []
    else
      var rest := DateQuery(table[1..], d);
      if table[0].dateText == Iso(d) then
        assert ([table[0]] + rest)[1..] == rest;
        [table[0]] + rest
      else
        rest
  }

  /** The merged rows of day `d`, compared as dates. */
  function OnDate(m: seq<MergedRow>, d: Date): (r: seq<MergedRow>)
    ensures ValidDates(m) ==> ValidDates(r)
  {
    if |m| == 0 then []
    else
      assert ValidDates(m) ==> ValidDates(m[1..]) by {
        if ValidDates(m) {
          assert forall i | 0 <= i < |m[1..]| :: m[1..][i] == m[i + 1];
        }
      }
      var rest := OnDate(m[1..], d);
      if m[0].key.date == d then ConsValid(m[0], rest); [m[0]] + rest else rest
  }

  /** The date query keeps every row dated `d` as often as the table holds
      it, and no other row. */
  lemma {:induction false} DateQueryRows(table: seq<StoredRow>, d: Date)
    requires IsValid(d)
    ensures forall x :: x in DateQuery(table, d) <==> x in table && x.dateText == Iso(d)
    ensures forall x :: multiset(DateQuery(table, d))[x] == if x.dateText == Iso(d) then multiset(table)[x] else 0
    decreases |table|
  {
    if |table| > 0 {
      DateQueryRows(table[1..], d);
      SplitFirst(table);
    }
  }

  /** `OnDate` keeps every row of day `d` as often as the table holds it,
      and no other row. */
  lemma {:induction false} OnDateRows(m: seq<MergedRow>, d: Date)
    ensures forall x :: x in OnDate(m, d) <==> x in m && x.key.date == d
    ensures forall x :: multiset(OnDate(m, d))[x] == if x.key.date == d then multiset(m)[x] else 0
    decreases |m|
  {
    if |m| > 0 {
      OnDateRows(m[1..], d);
      SplitFirst(m);
    }
  }

  lemma ConsValid(x: MergedRow, rest: seq<MergedRow>)
    ensures IsValid(x.key.date) && ValidDates(rest) ==> ValidDates([x] + rest)
  {
    assert forall i | 1 <= i < |[x] + rest| :: ([x] + rest)[i] == rest[i - 1];
  }

  /** The text comparison of the date query selects exactly the rows of that
      day, in table order. */
  lemma {:induction false} DateQueryIsDateFilter(m: seq<MergedRow>, d: Date)
    requires ValidDates(m) && IsValid(d)
    ensures DateQuery(Persist(m), d) == Persist(OnDate(m, d))
    decreases |m|
  {
    if |m| > 0 {
      PersistTail(m);
      DateQueryIsDateFilter(m[1..], d);
      DateQueryStep(Persist(m), d);
      OnDateStep(m, d);
      IsoInjective(m[0].key.date, d);
      if m[0].key.date == d {
        PersistConcat([m[0]], OnDate(m[1..], d));
      }
    }
  }

  /** Storing the rows after the first. */
  lemma PersistTail(m: seq<MergedRow>)
    requires ValidDates(m) && |m| > 0
    ensures ValidDates(m[1..])
    ensures Persist(m)[0] == Store(m[0]) && Persist(m)[1..] == Persist(m[1..])
  {
    assert forall i | 0 <= i < |m[1..]| :: m[1..][i] == m[i + 1];
  }

  lemma DateQueryStep(t: seq<StoredRow>, d: Date)
    requires |t| > 0 && IsValid(d)
    ensures DateQuery(t, d) == if t[0].dateText == Iso(d) then [t[0]] + DateQuery(t[1..], d) else DateQuery(t[1..], d)
  {
  }

  lemma OnDateStep(m: seq<MergedRow>, d: Date)
    requires |m| > 0
    ensures OnDate(m, d) == if m[0].key.date == d then [m[0]] + OnDate(m[1..], d) else OnDate(m[1..], d)
  {
  }

  // ---------------------------------------------------------------------------
  // The ticker query
  // ---------------------------------------------------------------------------

  /** The row filter of the ticker query: `ticker = '<t>'` and the date text
      between the two ISO texts, both ends included. */
  predicate InRangeText(x: StoredRow, q: TQuery)
    requires IsValid(q.start) && IsValid(q.end)
  {
    x.ticker == q.ticker && LexLe(Iso(q.start), x.dateText) && LexLe(x.dateText, Iso(q.end))
  }

  /** `SELECT * ... WHERE ticker = ... AND date >= ... AND date <= ...`. */
  function TickerQuery(table: seq<StoredRow>, q: TQuery): (r: seq<StoredRow>)
    requires IsValid(q.start) && IsValid(q.end)
    ensures IsSubsequence(r, table)
  {
    if |table| == 0 then []
    else
      var rest := TickerQuery(table[1..], q);
      if InRangeText(table[0], q) then
        assert ([table[0]] + rest)[1..] == rest;
        [table[0]] + rest
      else
        rest
  }

  /** The merged rows of ticker `q.ticker` dated from `q.start` to `q.end`,
      compared as dates. */
  function InRange(m: seq<MergedRow>, q: TQuery): (r: seq<MergedRow>)
    ensures ValidDates(m) ==> ValidDates(r)
  {
    if |m| == 0 then []
    else
      assert ValidDates(m) ==> ValidDates(m[1..]) by {
        if ValidDates(m) {
          assert forall i | 0 <= i < |m[1..]| :: m[1..][i] == m[i + 1];
        }
      }
      var rest := InRange(m[1..], q);
      if m[0].key.ticker == q.ticker && Le(q.start, m[0].key.date) && Le(m[0].key.date, q.end) then
        ConsValid(m[0], rest);
        [m[0]] + rest
      else
        rest
  }

  /** The ticker query keeps every row in the text range as often as the
      table holds it, and no other row. */
  lemma {:induction false} TickerQueryRows(table: seq<StoredRow>, q: TQuery)
    requires IsValid(q.start) && IsValid(q.end)
    ensures forall x :: x in TickerQuery(table, q) <==> x in table && InRangeText(x, q)
    ensures forall x :: multiset(TickerQuery(table, q))[x] == if InRangeText(x, q) then multiset(table)[x] else 0
    decreases |table|
  {
    if |table| > 0 {
      TickerQueryRows(table[1..], q);
      SplitFirst(table);
    }
  }

  /** `InRange` keeps every row of the ticker dated within the range as often
      as the table holds it, and no other row. */
  lemma {:induction false} InRangeRows(m: seq<MergedRow>, q: TQuery)
    ensures forall x :: x in InRange(m, q) <==>
              x in m && x.key.ticker == q.ticker && Le(q.start, x.key.date) && Le(x.key.date, q.end)
    ensures forall x :: multiset(InRange(m, q))[x] ==
              if x.key.ticker == q.ticker && Le(q.start, x.key.date) && Le(x.key.date, q.end) then multiset(m)[x] else 0
    decreases |m|
  {
    if |m| > 0 {
      InRangeRows(m[1..], q);
      SplitFirst(m);
    }
  }

  /** The string comparisons of the ticker query select exactly the rows of
      that ticker dated within the range, ends included, in table order. */
  lemma {:induction false} TickerQueryIsRangeFilter(m: seq<MergedRow>, q: TQuery)
    requires ValidDates(m) && IsValid(q.start) && IsValid(q.end)
    ensures TickerQuery(Persist(m), q) == Persist(InRange(m, q))
    decreases |m|
  {
    if |m| > 0 {
      PersistTail(m);
      TickerQueryIsRangeFilter(m[1..], q);
      TickerQueryStep(Persist(m), q);
      InRangeStep(m, q);
      InRangeTextIsInRange(m[0], q);
      if InRangeText(Store(m[0]), q) {
        PersistConcat([m[0]], InRange(m[1..], q));
        assert Persist([m[0]]) == [Store(m[0])];
      }
    }
  }

  lemma TickerQueryStep(t: seq<StoredRow>, q: TQuery)
    requires |t| > 0 && IsValid(q.start) && IsValid(q.end)
    ensures TickerQuery(t, q) == if InRangeText(t[0], q) then [t[0]] + TickerQuery(t[1..], q) else TickerQuery(t[1..], q)
  {
  }

  lemma InRangeStep(m: seq<MergedRow>, q: TQuery)
    requires |m| > 0
    ensures InRange(m, q) ==
              if m[0].key.ticker == q.ticker && Le(q.start, m[0].key.date) && Le(m[0].key.date, q.end)
              then [m[0]] + InRange(m[1..], q) else InRange(m[1..], q)
  {
  }

  /** For one stored row, the text filter is the date filter. */
  lemma InRangeTextIsInRange(row: MergedRow, q: TQuery)
    requires IsValid(row.key.date) && IsValid(q.start) && IsValid(q.end)
    ensures InRangeText(Store(row), q) <==>
              row.key.ticker == q.ticker && Le(q.start, row.key.date) && Le(row.key.date, q.end)
  {
    IsoOrder(q.start, row.key.date);
    IsoOrder(row.key.date, q.end);
  }

  /** Nothing checks that a ticker query's range is in order; a reversed range
      selects no row. */
  lemma ReversedRangeSelectsNothing(m: seq<MergedRow>, q: TQuery)
    requires ValidDates(m) && IsValid(q.start) && IsValid(q.end)
    requires !Le(q.start, q.end)
    ensures TickerQuery(Persist(m), q) == []
  {
    TickerQueryIsRangeFilter(m, q);
    InRangeRows(m, q);
    var r := InRange(m, q);
    if |r| > 0 {
      assert false;
    }
  }

  /** What a ticker query prints: the selected rows, then `COUNT(*)` of the
      whole table. */
  datatype TickerReport = TickerReport(rows: seq<StoredRow>, total: nat)

  function TickerQueryReport(table: seq<StoredRow>, q: TQuery): (r: TickerReport)
    requires IsValid(q.start) && IsValid(q.end)
    ensures r.total == |table|
    ensures |r.rows| <= r.total
    ensures forall x :: x in r.rows <==> x in table && InRangeText(x, q)
    ensures forall x :: multiset(r.rows)[x] == if InRangeText(x, q) then multiset(table)[x] else 0
    ensures IsSubsequence(r.rows, table)
  {
    var rows := TickerQuery(table, q);
    SubsequenceLength(rows, table);
    TickerQueryRows(table, q);
    TickerReport(rows, |table|)
  }

  lemma {:induction false} SubsequenceLength<T>(a: seq<T>, b: seq<T>)
    requires IsSubsequence(a, b)
    ensures |a| <= |b|
    decreases |b|
  {
    if |a| > 0 {
      if a[0] == b[0] && IsSubsequence(a[1..], b[1..]) {
        SubsequenceLength(a[1..], b[1..]);
      } else {
        SubsequenceLength(a, b[1..]);
      }
    }
  }
}

=== FILE: strptime.dfy ===
/** Python's `datetime.strptime` for the three date formats the script meets,
    modelled on how `_strptime` works: each directive is a regular expression
    with alternatives (`%Y` is `\d\d\d\d`, `%m` is `1[0-2]|0[1-9]|[1-9]`, `%d`
    is `3[01]|[12]\d|0[1-9]|[1-9]| [1-9]`, `%M` is `[0-5]\d|\d`); the engine
    takes the FIRST way the whole pattern matches at the start of the text,
    backtracking through earlier fields' alternatives in order; text left over
    after that match is an error ("unconverted data remains"), and so is a
    year 0 or a day the month does not have.

    - `ParseIso` is `%Y-%m-%d` (`date_fmt`, main.py:8);
    - `ParseMinuteForm` is `%Y%M%d` (`alt_date_fmt`, main.py:9) as written:
      the middle field is minutes, so the month is always January;
    - `ParseCompact` is `%Y%m%d`, the evidently intended compact format. */
module Strptime {
  import opened Wrappers
  import opened Text
  import opened Dates

  // ---------------------------------------------------------------------------
  // Directive alternatives: the end positions of the alternatives that match
  // at position i, in the order the regex engine tries them.
  // ---------------------------------------------------------------------------

  /** `%m`: `1[0-2]|0[1-9]|[1-9]` */
  function MonthEnds(s: string, i: nat): (ends: seq<nat>)
    ensures forall k | 0 <= k < |ends| :: i < ends[k] <= |s|
  {
    (if i + 2 <= |s| && s[i] == '1' && '0' <= s[i + 1] <= '2' then [i + 2] else [])
    + (if i + 2 <= |s| && s[i] == '0' && '1' <= s[i + 1] <= '9' then [i + 2] else [])
    + (if i < |s| && '1' <= s[i] <= '9' then [i + 1] else [])
  }

  /** `%d`: `3[01]|[12]\d|0[1-9]|[1-9]| [1-9]` */
  function DayEnds(s: string, i: nat): (ends: seq<nat>)
    ensures forall k | 0 <= k < |ends| :: i < ends[k] <= |s|
  {
    (if i + 2 <= |s| && s[i] == '3' && '0' <= s[i + 1] <= '1' then [i + 2] else [])
    + (if i + 2 <= |s| && '1' <= s[i] <= '2' && IsDigit(s[i + 1]) then [i + 2] else [])
    + (if i + 2 <= |s| && s[i] == '0' && '1' <= s[i + 1] <= '9' then [i + 2] else [])
    + (if i < |s| && '1' <= s[i] <= '9' then [i + 1] else [])
    + (if i + 2 <= |s| && s[i] == ' ' && '1' <= s[i + 1] <= '9' then [i + 2] else [])
  }

  /** `%M`: `[0-5]\d|\d` */
  function MinuteEnds(s: string, i: nat): (ends: seq<nat>)
    ensures forall k | 0 <= k < |ends| :: i < ends[k] <= |s|
  {
    (if i + 2 <= |s| && '0' <= s[i] <= '5' && IsDigit(s[i + 1]) then [i + 2] else [])
    + (if i < |s| && IsDigit(s[i]) then [i + 1] else [])
  }

  // ---------------------------------------------------------------------------
  // First match of "%Y<sep><middle><sep>%d"
  // ---------------------------------------------------------------------------

  /** What one match captures: the year, the month (1 when the pattern has no
      month field, as `strptime` defaults it), the day, and where it ended. */
  datatype Captures = Captures(year: int, month: int, day: int, end: nat)

  /** After a middle field ending at `e`, the rest of the pattern (a `-` when
      `dash`, then `%d`) can still match. */
  predicate DayFollows(s: string, e: nat, dash: bool)
  {
    if dash then e < |s| && s[e] == '-' && |DayEnds(s, e + 1)| > 0
    else |DayEnds(s, e)| > 0
  }

  /** The middle field's first alternative the engine keeps: later ones are
      tried only when the rest of the pattern fails after an earlier one. */
  function FirstViable(s: string, ends: seq<nat>, dash: bool): (r: Option<nat>)
    ensures r.Some? ==> r.value in ends && DayFollows(s, r.value, dash)
    ensures r.None? ==> forall e | e in ends :: !DayFollows(s, e, dash)
    ensures |ends| > 0 && DayFollows(s, ends[0], dash) ==> r == Some(ends[0])
  {
    if |ends| == 0 then None
    else if DayFollows(s, ends[0], dash) then Some(ends[0])
    else FirstViable(s, ends[1..], dash)
  }

  /** The regex of `%Y-%m-%d`. */
  function MatchIso(s: string): Option<Captures>
  {
    if |s| < 5 || !AllDigits(s[..4]) || s[4] != '-' then None
    else
      match FirstViable(s, MonthEnds(s, 5), true)
      case None => None
      case Some(e) =>
        var dayEnd := DayEnds(s, e + 1)[0];
        Some(Captures(DecimalValue(s[..4]), DecimalValue(s[5..e]), DecimalValue(s[e + 1..dayEnd]), dayEnd))
  }

  /** The regex of `%Y%M%d`: the minutes are matched and then dropped. */
  function MatchMinuteForm(s: string): Option<Captures>
  {
    if |s| < 4 || !AllDigits(s[..4]) then None
    else
      match FirstViable(s, MinuteEnds(s, 4), false)
      case None => None
      case Some(e) =>
        var dayEnd := DayEnds(s, e)[0];
        Some(Captures(DecimalValue(s[..4]), 1, DecimalValue(s[e..dayEnd]), dayEnd))
  }

  /** The regex of `%Y%m%d`. */
  function MatchCompact(s: string): Option<Captures>
  {
    if |s| < 4 || !AllDigits(s[..4]) then None
    else
      match FirstViable(s, MonthEnds(s, 4), false)
      case None => None
      case Some(e) =>
        var dayEnd := DayEnds(s, e)[0];
        Some(Captures(DecimalValue(s[..4]), DecimalValue(s[4..e]), DecimalValue(s[e..dayEnd]), dayEnd))
  }

  /** The checks `strptime` makes after the match: nothing may be left over,
      and the captured fields must form a date `datetime.date` accepts. */
  function ToDate(c: Option<Captures>, s: string): (r: Option<Date>)
    ensures r.Some? ==> IsValid(r.value)
    ensures r.Some? ==> c.Some? && c.value.end == |s|
  {
    match c
    case None => None
    case Some(cap) =>
      var d := Date(cap.year, cap.month, cap.day);
      if cap.end != |s| then None
      else if !IsValid(d) then None
      else Some(d)
  }

  /** `datetime.strptime(s, "%Y-%m-%d").date()`, `None` where it raises. */
  function ParseIso(s: string): (r: Option<Date>)
    ensures r.Some? ==> IsValid(r.value)
    ensures r.Some? ==> |s| >= 5 && s[4] == '-'
  {
    ToDate(MatchIso(s), s)
  }

  /** `datetime.strptime(s, "%Y%M%d").date()`: the middle digits are minutes,
      which `.date()` discards, so every date it yields is in January. */
  function ParseMinuteForm(s: string): (r: Option<Date>)
    ensures r.Some? ==> IsValid(r.value) && r.value.month == 1
    ensures r.Some? ==> |s| >= 5 && IsDigit(s[4])
  {
    ToDate(MatchMinuteForm(s), s)
  }

  /** `datetime.strptime(s, "%Y%m%d").date()`. */
  function ParseCompact(s: string): (r: Option<Date>)
    ensures r.Some? ==> IsValid(r.value)
    ensures r.Some? ==> |s| >= 5 && IsDigit(s[4])
  {
    ToDate(MatchCompact(s), s)
  }

  /** `date.strftime("%Y%m%d")`: the compact text a message file may use. */
  function Compact(d: Date): (s: string)
    requires IsValid(d)
    ensures |s| == 8 && AllDigits(s)
  {
    Digits(d.year, 4) + Digits(d.month, 2) + Digits(d.day, 2)
  }

  // ---------------------------------------------------------------------------
  // Round trips
  // ---------------------------------------------------------------------------

  /** A two-digit month makes `%m` stop after both digits. */
  lemma MonthOfTwoDigits(s: string, i: nat, m: int)
    requires 1 <= m <= 12 && i + 2 <= |s|
    requires s[i..i + 2] == Digits(m, 2)
    ensures |MonthEnds(s, i)| > 0 && MonthEnds(s, i)[0] == i + 2
    ensures DecimalValue(s[i..i + 2]) == m
  {
    TwoDigits(m);
    DigitsValue(m, 2);
    assert s[i] == DigitChar(m / 10) && s[i + 1] == DigitChar(m % 10);
  }

  /** A two-digit day makes `%d` stop after both digits. */
  lemma DayOfTwoDigits(s: string, i: nat, day: int)
    requires 1 <= day <= 31 && i + 2 <= |s|
    requires s[i..i + 2] == Digits(day, 2)
    ensures |DayEnds(s, i)| > 0 && DayEnds(s, i)[0] == i + 2
    ensures DecimalValue(s[i..i + 2]) == day
  {
    TwoDigits(day);
    DigitsValue(day, 2);
    assert s[i] == DigitChar(day / 10) && s[i + 1] == DigitChar(day % 10);
  }

  /** The text `%04d-%02d-%02d` of three fields, whether or not they form a
      date. */
  function IsoFields(y: int, m: int, day: int): (s: string)
    requires 0 <= y < 10000 && 0 <= m < 100 && 0 <= day < 100
    ensures |s| == 10 && s[4] == '-' && s[7] == '-'
  {
    Digits(y, 4) + "-" + Digits(m, 2) + "-" + Digits(day, 2)
  }

  /** Zero-padded fields with a two-digit month 01-12 and day 01-31 always
      match; the result is then decided by the date check alone, so year 0000
      and days past the end of the month (2020-02-30) are refused and every
      real date is accepted. */
  lemma ParseIsoFields(y: int, m: int, day: int)
    requires 0 <= y < 10000 && 1 <= m <= 12 && 1 <= day <= 31
    ensures ParseIso(IsoFields(y, m, day)) == if IsValid(Date(y, m, day)) then Some(Date(y, m, day)) else None
  {
    var s := IsoFields(y, m, day);
    assert s[..10] == s;
    IsoFieldsMatch(s, y, m, day);
  }

  /** Text that starts with such fields matches them, and the match stops
      after the two-digit day. */
  lemma IsoFieldsMatch(s: string, y: int, m: int, day: int)
    requires 0 <= y < 10000 && 1 <= m <= 12 && 1 <= day <= 31
    requires |s| >= 10 && s[..10] == IsoFields(y, m, day)
    ensures MatchIso(s) == Some(Captures(y, m, day, 10))
  {
    var f := IsoFields(y, m, day);
    assert s[..4] == f[..4] == Digits(y, 4);
    assert s[4] == f[4] && s[7] == f[7];
    assert s[5..7] == f[5..7] == Digits(m, 2);
    assert s[8..10] == f[8..10] == Digits(day, 2);
    DigitsValue(y, 4);
    MonthOfTwoDigits(s, 5, m);
    DayOfTwoDigits(s, 8, day);
    assert FirstViable(s, MonthEnds(s, 5), true) == Some(7);
  }

  /** Parsing the ISO text of a date gives the date back. */
  lemma IsoRoundTrip(d: Date)
    requires IsValid(d)
    ensures ParseIso(Iso(d)) == Some(d)
  {
    assert Iso(d) == IsoFields(d.year, d.month, d.day);
    ParseIsoFields(d.year, d.month, d.day);
  }

  /** Parsing the compact text of a date with the corrected format gives the
      date back. */
  lemma CompactRoundTrip(d: Date)
    requires IsValid(d)
    ensures ParseCompact(Compact(d)) == Some(d)
  {
    var s := Compact(d);
    assert s[..4] == Digits(d.year, 4);
    assert s[4..6] == Digits(d.month, 2);
    assert s[6..8] == Digits(d.day, 2);
    DigitsValue(d.year, 4);
    MonthOfTwoDigits(s, 4, d.month);
    DayOfTwoDigits(s, 6, d.day);
    assert FirstViable(s, MonthEnds(s, 4), false) == Some(6);
  }

  /** No text is a date in both the ISO form and a compact form, so a message
      file cannot satisfy both parsers on the same row. */
  lemma FormsAreDisjoint(s: string)
    ensures ParseIso(s).Some? ==> ParseCompact(s).None? && ParseMinuteForm(s).None?
  {
  }

  // ---------------------------------------------------------------------------
  // What the primary format accepts and refuses beyond `YYYY-MM-DD`
  // ---------------------------------------------------------------------------

  lemma DigitCharValue(k: int)
    requires 0 <= k < 10
    ensures DigitValue(DigitChar(k)) == k
    ensures DecimalValue([DigitChar(k)]) == k
  {
    assert [DigitChar(k)][..0] == [];
  }

  /** `strptime` is laxer than `YYYY-MM-DD`: one-digit months and days are
      accepted (`2020-1-5`). */
  lemma IsoAcceptsShortFields(y: int, m: int, day: int)
    requires IsValid(Date(y, m, day)) && m < 10 && day < 10
    ensures ParseIso(Digits(y, 4) + "-" + [DigitChar(m)] + "-" + [DigitChar(day)]) == Some(Date(y, m, day))
  {
    var s := Digits(y, 4) + "-" + [DigitChar(m)] + "-" + [DigitChar(day)];
    assert s[..4] == Digits(y, 4) && s[4] == '-';
    assert s[5] == DigitChar(m) && s[6] == '-' && s[7] == DigitChar(day) && |s| == 8;
    assert s[5..6] == [DigitChar(m)] && s[7..8] == [DigitChar(day)];
    DigitsValue(y, 4);
    DigitCharValue(m);
    DigitCharValue(day);
    assert MonthEnds(s, 5) == [6];
    assert DayEnds(s, 7) == [8];
    assert FirstViable(s, MonthEnds(s, 5), true) == Some(6);
    assert MatchIso(s) == Some(Captures(y, m, day, 8));
  }

  /** A blank in place of the leading zero of a day is accepted too
      (`2020-01- 5`). */
  lemma IsoAcceptsBlankBeforeDay(y: int, m: int, day: int)
    requires IsValid(Date(y, m, day)) && day < 10
    ensures ParseIso(Digits(y, 4) + "-" + Digits(m, 2) + "- " + [DigitChar(day)]) == Some(Date(y, m, day))
  {
    var s := Digits(y, 4) + "-" + Digits(m, 2) + "- " + [DigitChar(day)];
    assert s[..4] == Digits(y, 4) && s[4] == '-';
    assert s[5..7] == Digits(m, 2) && s[7] == '-';
    assert s[8] == ' ' && s[9] == DigitChar(day) && |s| == 10;
    DigitsValue(y, 4);
    MonthOfTwoDigits(s, 5, m);
    BlankBeforeDay(s, 8, day);
    assert FirstViable(s, MonthEnds(s, 5), true) == Some(7);
  }

  /** A blank and one digit make `%d` take its last alternative. */
  lemma BlankBeforeDay(s: string, i: nat, day: int)
    requires 1 <= day < 10 && i + 2 == |s|
    requires s[i] == ' ' && s[i + 1] == DigitChar(day)
    ensures DayEnds(s, i) == [i + 2]
    ensures DecimalValue(s[i..i + 2]) == day
  {
    DigitCharValue(day);
    TwoDigitValue(s[i..i + 2]);
  }

  /** A two-digit month outside 01-12 (`2020-13-01`) is refused by the match:
      `%m` can then only take the first digit, and the `-` it needs next is
      not there. */
  lemma IsoRejectsBadMonth(y: int, m: int, day: int)
    requires 0 <= y < 10000 && (m == 0 || 12 < m < 100) && 0 <= day < 100
    ensures ParseIso(IsoFields(y, m, day)) == None
  {
    var s := IsoFields(y, m, day);
    assert s[5..7] == Digits(m, 2);
    TwoDigits(m);
    assert s[5] == DigitChar(m / 10) && s[6] == DigitChar(m % 10);
    var ends := MonthEnds(s, 5);
    forall k | 0 <= k < |ends|
      ensures !DayFollows(s, ends[k], true)
    {
      assert ends[k] == 6;
    }
    assert FirstViable(s, ends, true) == None;
  }

  /** Text after a complete date is refused ("unconverted data remains"):
      the match stops after the two-digit day. */
  lemma IsoRejectsTrailingText(d: Date, t: string)
    requires IsValid(d) && |t| > 0
    ensures ParseIso(Iso(d) + t) == None
  {
    var s := Iso(d) + t;
    assert s[..10] == Iso(d) == IsoFields(d.year, d.month, d.day);
    IsoFieldsMatch(s, d.year, d.month, d.day);
  }

  // ---------------------------------------------------------------------------
  // The alternate format as written
  // ---------------------------------------------------------------------------

  /** As written, the alternate format reads the month digits of a compact
      date as minutes and drops them: every compact date is read as the same
      day of January (`20200215` becomes 15 January 2020). */
  lemma MinuteFormReadsJanuary(d: Date)
    requires IsValid(d)
    ensures ParseMinuteForm(Compact(d)) == Some(Date(d.year, 1, d.day))
  {
    var s := Compact(d);
    assert s[..4] == Digits(d.year, 4);
    assert s[4..6] == Digits(d.month, 2);
    assert s[6..8] == Digits(d.day, 2);
    TwoDigits(d.month);
    assert s[4] == DigitChar(d.month / 10) && s[5] == DigitChar(d.month % 10);
    DigitsValue(d.year, 4);
    DayOfTwoDigits(s, 6, d.day);
    assert MinuteEnds(s, 4)[0] == 6;
    assert FirstViable(s, MinuteEnds(s, 4), false) == Some(6);
    assert MatchMinuteForm(s) == Some(Captures(d.year, 1, d.day, 8));
  }

  /** So the script as written and the corrected format disagree on every
      compact date outside January. */
  lemma MinuteFormDiffers(d: Date)
    requires IsValid(d) && d.month != 1
    ensures ParseMinuteForm(Compact(d)) != ParseCompact(Compact(d))
  {
    MinuteFormReadsJanuary(d);
    CompactRoundTrip(d);
  }
}

=== FILE: tables.dfy ===
/** The in-memory tables of the build (main.py:76-129): price rows and message
    rows keyed by (ticker, date), the order `sort_index` puts them in, the
    filter that drops messages without a tweet count, and the left merge that
    attaches each message row's prices. Rows are sequences in table order;
    a null cell is `None`. */
module Tables {
  import opened Wrappers
  import opened Text
  import opened Dates

  /** A float64 cell. Rounding is not modelled: the build only copies these
      values, it never computes with them. */
  type Num = real

  /** The (ticker, date) index both tables are keyed by. */
  datatype Key = Key(ticker: string, date: Date)

  /** The five price columns of the price file; any of them may be null. */
  datatype Prices = Prices(
    open: Option<Num>,
    close: Option<Num>,
    high: Option<Num>,
    low: Option<Num>,
    exDividend: Option<Num>)

  /** One row of the price table. */
  datatype PriceRow = PriceRow(key: Key, prices: Prices)

  /** One row of the message table: the sentiment score and the tweet count,
      either of which may be missing in the source files. */
  datatype SmsRow = SmsRow(key: Key, positive: Option<Num>, tweets: Option<int>)

  /** One row of the merged table after the projection of main.py:128: the
      index, the two message columns and the prices found for the key (`None`
      when the price table has no row for it, which pandas shows as five NaN
      cells). */
  datatype MergedRow = MergedRow(key: Key, tweets: Option<int>, positive: Option<Num>, prices: Option<Prices>)

  // ---------------------------------------------------------------------------
  // Key order
  // ---------------------------------------------------------------------------

  /** The order of a sorted (ticker, date) index: tickers by text (the
      categories `astype("category")` infers are sorted), then dates
      chronologically. */
  predicate KeyLe(a: Key, b: Key) {
    || (a.ticker != b.ticker && LexLe(a.ticker, b.ticker))
    || (a.ticker == b.ticker && Le(a.date, b.date))
  }

  lemma KeyLeReflexive(a: Key)
    ensures KeyLe(a, a)
  {
  }

  lemma KeyLeTotal(a: Key, b: Key)
    ensures KeyLe(a, b) || KeyLe(b, a)
  {
    LexLeTotal(a.ticker, b.ticker);
  }

  lemma KeyLeTransitive(a: Key, b: Key, c: Key)
    requires KeyLe(a, b) && KeyLe(b, c)
    ensures KeyLe(a, c)
  {
    if a.ticker != b.ticker && b.ticker != c.ticker {
      LexLeTransitive(a.ticker, b.ticker, c.ticker);
      if a.ticker == c.ticker {
        LexLeAntisymmetric(a.ticker, b.ticker);
      }
    }
  }

  /** Two keys ordered both ways are the same key. */
  lemma KeyLeAntisymmetric(a: Key, b: Key)
    requires KeyLe(a, b) && KeyLe(b, a)
    ensures a == b
  {
    if a.ticker != b.ticker {
      LexLeAntisymmetric(a.ticker, b.ticker);
    }
  }

  /** `s` is in index order under the key `key`. */
  predicate SortedBy<T>(s: seq<T>, key: T -> Key) {
    forall i, j | 0 <= i < j < |s| :: KeyLe(key(s[i]), key(s[j]))
  }

  // ---------------------------------------------------------------------------
  // Sorting (`sort_index`)
  // ---------------------------------------------------------------------------

  /** Puts `x` into the sorted `s` before the first element it does not
      follow. */
  function Insert<T>(x: T, s: seq<T>, key: T -> Key): (r: seq<T>)
    requires SortedBy(s, key)
    ensures SortedBy(r, key)
    ensures multiset(r) == multiset(s) + multiset{x}
  {
    if |s| == 0 then [x]
    else if KeyLe(key(x), key(s[0])) then
      InsertAtFront(x, s, key);
      [x] + s
    else
      var rest := Insert(x, s[1..], key);
      KeyLeTotal(key(x), key(s[0]));
      assert s == [s[0]] + s[1..];
      FrontBelowAll(s[0], rest, key, x, s[1..]);
      [s[0]] + rest
  }

  lemma InsertAtFront<T>(x: T, s: seq<T>, key: T -> Key)
    requires SortedBy(s, key) && |s| > 0 && KeyLe(key(x), key(s[0]))
    ensures SortedBy([x] + s, key)
  {
    var r := [x] + s;
    forall i, j | 0 <= i < j < |r|
      ensures KeyLe(key(r[i]), key(r[j]))
    {
      if i == 0 && j > 1 {
        KeyLeTransitive(key(x), key(s[0]), key(s[j - 1]));
      }
    }
  }

  /** Putting `y` in front of a sorted sequence whose elements come from
      `s` and `x`, all of which `y` precedes, keeps it sorted. */
  lemma FrontBelowAll<T>(y: T, rest: seq<T>, key: T -> Key, x: T, s: seq<T>)
    requires SortedBy(rest, key) && SortedBy([y] + s, key)
    requires multiset(rest) == multiset(s) + multiset{x}
    requires KeyLe(key(y), key(x))
    ensures SortedBy([y] + rest, key)
  {
    var r := [y] + rest;
    forall i, j | 0 <= i < j < |r|
      ensures KeyLe(key(r[i]), key(r[j]))
    {
      if i == 0 {
        var e := rest[j - 1];
        assert r[j] == e && r[0] == y;
        assert e in multiset(rest);
        if e != x {
          assert e in multiset(s);
          var k :| 0 <= k < |s| && s[k] == e;
          assert ([y] + s)[k + 1] == e && ([y] + s)[0] == y;
        }
      } else {
        assert r[i] == rest[i - 1] && r[j] == rest[j - 1];
      }
    }
  }

  /** The rows in index order: a sorted permutation of the input. Rows with
      equal keys keep their input order here; pandas does not promise any
      particular order for them. */
  function SortByKey<T>(s: seq<T>, key: T -> Key): (r: seq<T>)
    ensures SortedBy(r, key)
    ensures multiset(r) == multiset(s)
  {
    if |s| == 0 then []
    else
      assert s == [s[0]] + s[1..];
      Insert(s[0], SortByKey(s[1..], key), key)
  }

  /** A sorted input is returned as it is. */
  lemma {:induction false} SortIdempotent<T>(s: seq<T>, key: T -> Key)
    requires SortedBy(s, key)
    ensures SortByKey(s, key) == s
  {
    if |s| > 0 {
      var rest := s[1..];
      assert SortedBy(rest, key) by {
        forall i, j | 0 <= i < j < |rest|
          ensures KeyLe(key(rest[i]), key(rest[j]))
        {
          assert rest[i] == s[i + 1] && rest[j] == s[j + 1];
        }
      }
      SortIdempotent(rest, key);
      if |rest| > 0 {
        assert rest[0] == s[1];
      }
      InsertSmallest(s[0], rest, key);
      assert s == [s[0]] + rest;
    }
  }

  /** An element no greater than the head of a sorted sequence goes in front. */
  lemma InsertSmallest<T>(x: T, s: seq<T>, key: T -> Key)
    requires SortedBy(s, key)
    requires |s| > 0 ==> KeyLe(key(x), key(s[0]))
    ensures Insert(x, s, key) == [x] + s
  {
  }

  function PriceKey(p: PriceRow): Key { p.key }

  function SmsKey(m: SmsRow): Key { m.key }

  function MergedKey(m: MergedRow): Key { m.key }

  // ---------------------------------------------------------------------------
  // The null filter (`clean_up_sms_df`)
  // ---------------------------------------------------------------------------

  /** `df[pandas.notnull(df["tweets"])]`: the rows that have a tweet count, in
      their order. */
  function DropNullTweets(rows: seq<SmsRow>): (r: seq<SmsRow>)
    ensures forall i | 0 <= i < |r| :: r[i].tweets.Some?
    ensures forall x :: x in r <==> x in rows && x.tweets.Some?
    ensures IsSubsequence(r, rows)
    ensures |r| <= |rows|
  {
    if |rows| == 0 then []
    else
      var rest := DropNullTweets(rows[1..]);
      assert forall x :: x in rows <==> x == rows[0] || x in rows[1..];
      if rows[0].tweets.Some? then
        assert ([rows[0]] + rest)[1..] == rest;
        [rows[0]] + rest
      else
        SubsequenceOfTail(rest, rows);
        rest
  }

  lemma SubsequenceOfTail<T>(a: seq<T>, b: seq<T>)
    requires |b| > 0 && IsSubsequence(a, b[1..])
    ensures IsSubsequence(a, b)
  {
  }

  /** Filtering twice is filtering once. */
  lemma {:induction false} DropNullTweetsIdempotent(rows: seq<SmsRow>)
    ensures DropNullTweets(DropNullTweets(rows)) == DropNullTweets(rows)
  {
    var r := DropNullTweets(rows);
    NothingToDrop(r);
  }

  /** Rows that all have a tweet count pass the filter unchanged. */
  lemma {:induction false} NothingToDrop(rows: seq<SmsRow>)
    requires forall i | 0 <= i < |rows| :: rows[i].tweets.Some?
    ensures DropNullTweets(rows) == rows
    decreases |rows|
  {
    if |rows| > 0 {
      NothingToDrop(rows[1..]);
      assert rows == [rows[0]] + rows[1..];
    }
  }

  /** The filter works row by row, so it can be applied to the parts of a
      concatenation. */
  lemma {:induction false} DropNullTweetsConcat(a: seq<SmsRow>, b: seq<SmsRow>)
    ensures DropNullTweets(a + b) == DropNullTweets(a) + DropNullTweets(b)
    decreases |a|
  {
    if |a| == 0 {
      assert a + b == b;
    } else {
      assert (a + b)[0] == a[0];
      assert (a + b)[1..] == a[1..] + b;
      DropNullTweetsConcat(a[1..], b);
    }
  }

  /** Cleaning the accumulated table after every appended file gives the same
      table as cleaning once at the end. */
  lemma CleanAfterAppend(acc: seq<SmsRow>, file: seq<SmsRow>)
    ensures DropNullTweets(DropNullTweets(acc) + file) == DropNullTweets(acc + file)
  {
    DropNullTweetsConcat(DropNullTweets(acc), file);
    DropNullTweetsConcat(acc, file);
    DropNullTweetsIdempotent(acc);
  }

  // ---------------------------------------------------------------------------
  // The left merge
  // ---------------------------------------------------------------------------

  /** The prices of every price row with key `k`, in price-table order. */
  function PricesFor(prices: seq<PriceRow>, k: Key): (ps: seq<Prices>)
    ensures forall p :: p in ps <==> PriceRow(k, p) in prices
    ensures (forall i | 0 <= i < |prices| :: prices[i].key != k) ==> ps == []
  {
    if |prices| == 0 then []
    else
      assert forall x :: x in prices <==> x == prices[0] || x in prices[1..];
      (if prices[0].key == k then [prices[0].prices] else []) + PricesFor(prices[1..], k)
  }

  /** The merged rows one message row gives: one per matching price row, or a
      single row without prices when none matches. */
  function MergeRow(m: SmsRow, ps: seq<Prices>): (r: seq<MergedRow>)
    ensures |r| == if |ps| == 0 then 1 else |ps|
    ensures forall i | 0 <= i < |r| ::
              r[i].key == m.key && r[i].tweets == m.tweets && r[i].positive == m.positive
    ensures |ps| == 0 ==> r[0].prices.None?
    ensures forall i | 0 <= i < |ps| :: r[i].prices == Some(ps[i])
  {
    if |ps| == 0 then [MergedRow(m.key, m.tweets, m.positive, None)]
    else seq(|ps|, i requires 0 <= i < |ps| => MergedRow(m.key, m.tweets, m.positive, Some(ps[i])))
  }

  /** `msgs.merge(prices, how="left", on=["ticker", "date"])` followed by the
      column projection: every message row, in order, with the prices of its
      key attached. */
  function LeftMerge(msgs: seq<SmsRow>, prices: seq<PriceRow>): (r: seq<MergedRow>)
    ensures |r| >= |msgs|
  {
    if |msgs| == 0 then []
    else MergeRow(msgs[0], PricesFor(prices, msgs[0].key)) + LeftMerge(msgs[1..], prices)
  }

  /** `r` carries the key and the fields of message row `m`. */
  predicate CarriesMessage(r: MergedRow, m: SmsRow) {
    r.key == m.key && r.tweets == m.tweets && r.positive == m.positive
  }

  /** `r` carries the key and the fields of one of the message rows. */
  ghost predicate FromMessage(r: MergedRow, msgs: seq<SmsRow>) {
    exists j | 0 <= j < |msgs| :: CarriesMessage(r, msgs[j])
  }

  /** The prices of `r` are those of a price row with its key, and are absent
      only when no price row has that key. */
  ghost predicate PricedFrom(r: MergedRow, prices: seq<PriceRow>) {
    match r.prices
    case Some(p) => PriceRow(r.key, p) in prices
    case None => |PricesFor(prices, r.key)| == 0
  }

  /** Every merged row comes from a message row, and its prices from a price
      row with its key; they are null only when no price row has that key. */
  lemma {:induction false} LeftMergeRows(msgs: seq<SmsRow>, prices: seq<PriceRow>)
    ensures forall i | 0 <= i < |LeftMerge(msgs, prices)| ::
              FromMessage(LeftMerge(msgs, prices)[i], msgs) && PricedFrom(LeftMerge(msgs, prices)[i], prices)
    decreases |msgs|
  {
    if |msgs| > 0 {
      LeftMergeRows(msgs[1..], prices);
      var here := MergeRow(msgs[0], PricesFor(prices, msgs[0].key));
      var rest := LeftMerge(msgs[1..], prices);
      assert LeftMerge(msgs, prices) == here + rest;
      ConsRows(msgs, prices, here, rest);
    }
  }

  /** Some row of `r` carries message row `m`. */
  ghost predicate Keeps(r: seq<MergedRow>, m: SmsRow) {
    exists i | 0 <= i < |r| :: CarriesMessage(r[i], m)
  }

  /** No message row is lost: each one has a row in the merge. */
  lemma {:induction false} LeftMergeKeepsMessages(msgs: seq<SmsRow>, prices: seq<PriceRow>)
    ensures forall j | 0 <= j < |msgs| :: Keeps(LeftMerge(msgs, prices), msgs[j])
    decreases |msgs|
  {
    if |msgs| > 0 {
      LeftMergeKeepsMessages(msgs[1..], prices);
      var here := MergeRow(msgs[0], PricesFor(prices, msgs[0].key));
      var rest := LeftMerge(msgs[1..], prices);
      var r := here + rest;
      assert LeftMerge(msgs, prices) == r;
      assert r[0] == here[0] && CarriesMessage(r[0], msgs[0]);
      forall j | 1 <= j < |msgs|
        ensures Keeps(r, msgs[j])
      {
        assert msgs[j] == msgs[1..][j - 1];
        var i :| 0 <= i < |rest| && CarriesMessage(rest[i], msgs[j]);
        assert r[|here| + i] == rest[i];
      }
    }
  }

  lemma ConsRows(msgs: seq<SmsRow>, prices: seq<PriceRow>, here: seq<MergedRow>, rest: seq<MergedRow>)
    requires |msgs| > 0 && here == MergeRow(msgs[0], PricesFor(prices, msgs[0].key))
    requires forall i | 0 <= i < |rest| :: FromMessage(rest[i], msgs[1..]) && PricedFrom(rest[i], prices)
    ensures forall i | 0 <= i < |here + rest| :: FromMessage((here + rest)[i], msgs) && PricedFrom((here + rest)[i], prices)
  {
    HeadRows(msgs, prices);
    TailRows(msgs, prices, rest);
    var r := here + rest;
    forall i | 0 <= i < |r|
      ensures FromMessage(r[i], msgs) && PricedFrom(r[i], prices)
    {
      if i < |here| {
        assert r[i] == here[i];
      } else {
        assert r[i] == rest[i - |here|];
      }
    }
  }

  /** The rows the first message row gives. */
  lemma HeadRows(msgs: seq<SmsRow>, prices: seq<PriceRow>)
    requires |msgs| > 0
    ensures forall i | 0 <= i < |MergeRow(msgs[0], PricesFor(prices, msgs[0].key))| ::
              FromMessage(MergeRow(msgs[0], PricesFor(prices, msgs[0].key))[i], msgs)
              && PricedFrom(MergeRow(msgs[0], PricesFor(prices, msgs[0].key))[i], prices)
  {
    var here := MergeRow(msgs[0], PricesFor(prices, msgs[0].key));
    forall i | 0 <= i < |here|
      ensures FromMessage(here[i], msgs) && PricedFrom(here[i], prices)
    {
      assert CarriesMessage(here[i], msgs[0]);
    }
  }

  /** Rows from the later message rows come from the message table. */
  lemma TailRows(msgs: seq<SmsRow>, prices: seq<PriceRow>, rest: seq<MergedRow>)
    requires |msgs| > 0
    requires forall i | 0 <= i < |rest| :: FromMessage(rest[i], msgs[1..]) && PricedFrom(rest[i], prices)
    ensures forall i | 0 <= i < |rest| :: FromMessage(rest[i], msgs) && PricedFrom(rest[i], prices)
  {
    forall i | 0 <= i < |rest|
      ensures FromMessage(rest[i], msgs)
    {
      var j :| 0 <= j < |msgs[1..]| && CarriesMessage(rest[i], msgs[1..][j]);
      assert msgs[1..][j] == msgs[j + 1];
    }
  }

  /** Every price key occurs at most once, as in a price file with one row per
      ticker and day. */
  predicate UniqueKeys(prices: seq<PriceRow>) {
    forall i, j | 0 <= i < j < |prices| :: prices[i].key != prices[j].key
  }

  lemma {:induction false} PricesForUnique(prices: seq<PriceRow>, k: Key)
    requires UniqueKeys(prices)
    ensures |PricesFor(prices, k)| <= 1
    decreases |prices|
  {
    if |prices| > 0 {
      PricesForUnique(prices[1..], k);
      if prices[0].key == k {
        forall i | 0 <= i < |prices[1..]|
          ensures prices[1..][i].key != k
        {
          assert prices[1..][i] == prices[i + 1];
        }
      }
    }
  }

  /** `r` is the merged row of message row `m` under a price table with one
      row per key: the message's key and fields, with prices absent exactly
      when no price row has that key. */
  ghost predicate MergedFrom(r: MergedRow, m: SmsRow, prices: seq<PriceRow>) {
    && r.key == m.key && r.tweets == m.tweets && r.positive == m.positive
    && (r.prices.None? <==> forall p :: PriceRow(m.key, p) !in prices)
  }

  /** With one price row per key, the merge gives exactly one row per message
      row, in message order, carrying the message's fields unchanged; its
      prices are absent exactly when no price row has its key. */
  lemma {:induction false} LeftMergeUnique(msgs: seq<SmsRow>, prices: seq<PriceRow>)
    requires UniqueKeys(prices)
    ensures |LeftMerge(msgs, prices)| == |msgs|
    ensures forall i | 0 <= i < |msgs| :: MergedFrom(LeftMerge(msgs, prices)[i], msgs[i], prices)
    decreases |msgs|
  {
    if |msgs| > 0 {
      LeftMergeUnique(msgs[1..], prices);
      MergeRowUnique(msgs[0], prices);
      var here := MergeRow(msgs[0], PricesFor(prices, msgs[0].key));
      var rest := LeftMerge(msgs[1..], prices);
      assert LeftMerge(msgs, prices) == here + rest;
      ConsMergedFrom(msgs, prices, here, rest);
    }
  }

  /** With one price row per key, a message row gives a single merged row. */
  lemma MergeRowUnique(m: SmsRow, prices: seq<PriceRow>)
    requires UniqueKeys(prices)
    ensures |MergeRow(m, PricesFor(prices, m.key))| == 1
    ensures MergedFrom(MergeRow(m, PricesFor(prices, m.key))[0], m, prices)
  {
    var ps := PricesFor(prices, m.key);
    PricesForUnique(prices, m.key);
    if |ps| > 0 {
      assert PriceRow(m.key, ps[0]) in prices;
    }
  }

  lemma ConsMergedFrom(msgs: seq<SmsRow>, prices: seq<PriceRow>, here: seq<MergedRow>, rest: seq<MergedRow>)
    requires |msgs| > 0 && |here| == 1 && MergedFrom(here[0], msgs[0], prices)
    requires |rest| == |msgs| - 1
    requires forall i | 0 <= i < |rest| :: MergedFrom(rest[i], msgs[1..][i], prices)
    ensures forall i | 0 <= i < |msgs| :: MergedFrom((here + rest)[i], msgs[i], prices)
  {
    forall i | 0 <= i < |msgs|
      ensures MergedFrom((here + rest)[i], msgs[i], prices)
    {
      if i > 0 {
        assert (here + rest)[i] == rest[i - 1] && msgs[i] == msgs[1..][i - 1];
      }
    }
  }

  /** A message table in index order gives a merged table in index order. */
  lemma {:induction false} LeftMergeSorted(msgs: seq<SmsRow>, prices: seq<PriceRow>)
    requires SortedBy(msgs, SmsKey)
    ensures SortedBy(LeftMerge(msgs, prices), MergedKey)
    decreases |msgs|
  {
    if |msgs| > 0 {
      assert SortedBy(msgs[1..], SmsKey) by {
        assert forall i | 0 <= i < |msgs[1..]| :: msgs[1..][i] == msgs[i + 1];
      }
      LeftMergeSorted(msgs[1..], prices);
      var here := MergeRow(msgs[0], PricesFor(prices, msgs[0].key));
      var rest := LeftMerge(msgs[1..], prices);
      assert here + rest == LeftMerge(msgs, prices);
      forall j | 0 <= j < |msgs[1..]|
        ensures KeyLe(msgs[0].key, msgs[1..][j].key)
      {
        assert msgs[1..][j] == msgs[j + 1];
      }
      LeftMergeAbove(msgs[1..], prices, msgs[0].key);
      SortedAfterBlock(here, rest, msgs[0].key);
    }
  }

  /** A lower bound on the message keys bounds the merged keys. */
  lemma LeftMergeAbove(msgs: seq<SmsRow>, prices: seq<PriceRow>, k: Key)
    requires forall j | 0 <= j < |msgs| :: KeyLe(k, msgs[j].key)
    ensures forall i | 0 <= i < |LeftMerge(msgs, prices)| :: KeyLe(k, LeftMerge(msgs, prices)[i].key)
  {
  }

  /** A block of rows of one key, then sorted rows of no smaller key, is sorted. */
  lemma SortedAfterBlock(here: seq<MergedRow>, rest: seq<MergedRow>, k: Key)
    requires forall i | 0 <= i < |here| :: here[i].key == k
    requires SortedBy(rest, MergedKey)
    requires forall i | 0 <= i < |rest| :: KeyLe(k, rest[i].key)
    ensures SortedBy(here + rest, MergedKey)
  {
    var r := here + rest;
    forall i, j | 0 <= i < j < |r|
      ensures KeyLe(r[i].key, r[j].key)
    {
      if j < |here| {
        assert r[i] == here[i] && r[j] == here[j];
        KeyLeReflexive(k);
      } else if i < |here| {
        assert r[i] == here[i] && r[j] == rest[j - |here|];
      } else {
        assert r[i] == rest[i - |here|] && r[j] == rest[j - |here|];
      }
    }
  }
}

=== FILE: text.dfy ===
/** Character and string helpers shared by the parsers, the line repair and the
    queries: ASCII decimal digits, fixed-width decimal text, code-point
    lexicographic order (Python's `str` comparison and SQLite's BINARY
    collation), and Python's `str.split` on a one-character separator. */
module Text {

  // ---------------------------------------------------------------------------
  // Decimal digits
  // ---------------------------------------------------------------------------

  predicate IsDigit(c: char) {
    '0' <= c <= '9'
  }

  predicate AllDigits(s: string) {
    forall i | 0 <= i < |s| :: IsDigit(s[i])
  }

  function DigitChar(k: int): (c: char)
    requires 0 <= k < 10
    ensures IsDigit(c)
  {
    ('0' as int + k) as char
  }

  /** The value of a digit; any other character counts as zero. */
  function DigitValue(c: char): (k: int)
    ensures 0 <= k < 10
  {
    if IsDigit(c) then c as int - '0' as int else 0
  }

  /** The decimal value of a string of digits, as Python's `int` reads it. A
      non-digit counts as zero, so a leading blank adds nothing. */
  function DecimalValue(s: string): nat
  {
    if |s| == 0 then 0 else DecimalValue(s[..|s| - 1]) * 10 + DigitValue(s[|s| - 1])
  }

  function Pow10(n: nat): (p: nat)
    ensures p >= 1
  {
    if n == 0 then 1 else 10 * Pow10(n - 1)
  }

  /** `n` written with exactly `width` decimal digits, zero-padded on the left
      (the `%0<width>d` of Python's date formatting). */
  function Digits(n: nat, width: nat): (s: string)
    requires n < Pow10(width)
    ensures |s| == width
    ensures AllDigits(s)
  {
    if width == 0 then ""
    else
      assert n / 10 < Pow10(width - 1);
      Digits(n / 10, width - 1) + [DigitChar(n % 10)]
  }

  /** Reading fixed-width decimal text back gives the number written. */
  lemma {:induction false} DigitsValue(n: nat, width: nat)
    requires n < Pow10(width)
    ensures DecimalValue(Digits(n, width)) == n
  {
    if width > 0 {
      var s := Digits(n, width);
      assert s[..|s| - 1] == Digits(n / 10, width - 1);
      DigitsValue(n / 10, width - 1);
    }
  }

  lemma TwoDigitValue(s: string)
    requires |s| == 2
    ensures DecimalValue(s) == 10 * DigitValue(s[0]) + DigitValue(s[1])
  {
    var c := s[..1];
    assert c[..0] == [] && c[0] == s[0];
    assert DecimalValue(c) == DigitValue(s[0]);
  }

  lemma FourDigitValue(s: string)
    requires |s| == 4
    ensures DecimalValue(s) == 1000 * DigitValue(s[0]) + 100 * DigitValue(s[1]) + 10 * DigitValue(s[2]) + DigitValue(s[3])
  {
    var a, b := s[..3], s[..2];
    assert a[..2] == b && a[2] == s[2];
    assert b[..1] == s[..1] && b[1] == s[1];
    TwoDigitValue(b);
    assert DecimalValue(a) == DecimalValue(b) * 10 + DigitValue(s[2]);
  }

  lemma TwoDigits(n: nat)
    requires n < 100
    ensures Digits(n, 2) == [DigitChar(n / 10), DigitChar(n % 10)]
  {
    assert n / 10 < 10 && (n / 10) % 10 == n / 10 && (n / 10) / 10 == 0;
    assert Digits(n / 10, 1) == Digits(0, 0) + [DigitChar(n / 10)];
  }

  // ---------------------------------------------------------------------------
  // Lexicographic order
  // ---------------------------------------------------------------------------

  /** Code-point lexicographic order: `a` is a prefix of `b`, or the first
      difference has the smaller character in `a`. */
  predicate LexLe(a: string, b: string)
    decreases |a|
  {
    |a| == 0 || (|b| > 0 && (a[0] < b[0] || (a[0] == b[0] && LexLe(a[1..], b[1..]))))
  }

  lemma {:induction false} LexLeReflexive(a: string)
    ensures LexLe(a, a)
    decreases |a|
  {
    if |a| > 0 {
      LexLeReflexive(a[1..]);
    }
  }

  lemma {:induction false} LexLeAntisymmetric(a: string, b: string)
    requires LexLe(a, b) && LexLe(b, a)
    ensures a == b
    decreases |a|
  {
    if |a| > 0 {
      LexLeAntisymmetric(a[1..], b[1..]);
      assert a == [a[0]] + a[1..];
      assert b == [b[0]] + b[1..];
    }
  }

  lemma {:induction false} LexLeTransitive(a: string, b: string, c: string)
    requires LexLe(a, b) && LexLe(b, c)
    ensures LexLe(a, c)
    decreases |a|
  {
    if |a| > 0 && a[0] == b[0] && b[0] == c[0] {
      LexLeTransitive(a[1..], b[1..], c[1..]);
    }
  }

  lemma {:induction false} LexLeTotal(a: string, b: string)
    ensures LexLe(a, b) || LexLe(b, a)
    decreases |a|
  {
    if |a| > 0 && |b| > 0 && a[0] == b[0] {
      LexLeTotal(a[1..], b[1..]);
    }
  }

  /** Comparing two strings that start with blocks of equal width compares the
      blocks first and the remainders only when the blocks are equal. */
  lemma {:induction false} LexLeConcat(a: string, b: string, c: string, d: string)
    requires |a| == |c|
    ensures LexLe(a + b, c + d) <==> (a != c && LexLe(a, c)) || (a == c && LexLe(b, d))
    decreases |a|
  {
    if |a| > 0 {
      assert (a + b)[0] == a[0] && (c + d)[0] == c[0];
      assert (a + b)[1..] == a[1..] + b;
      assert (c + d)[1..] == c[1..] + d;
      LexLeConcat(a[1..], b, c[1..], d);
      if a[0] == c[0] {
        assert a == c <==> a[1..] == c[1..] by {
          assert a == [a[0]] + a[1..];
          assert c == [c[0]] + c[1..];
        }
      }
    } else {
      assert a + b == b && c + d == d;
    }
  }

  /** Fixed-width decimal text determines its value. */
  lemma DigitsInjective(n: nat, m: nat, width: nat)
    requires n < Pow10(width) && m < Pow10(width)
    ensures Digits(n, width) == Digits(m, width) <==> n == m
  {
    DigitsValue(n, width);
    DigitsValue(m, width);
  }

  /** On zero-padded decimal text of one width, text order is numeric order. */
  lemma {:induction false} DigitsOrder(n: nat, m: nat, width: nat)
    requires n < Pow10(width) && m < Pow10(width)
    ensures LexLe(Digits(n, width), Digits(m, width)) <==> n <= m
  {
    if width > 0 {
      var a, c := Digits(n / 10, width - 1), Digits(m / 10, width - 1);
      var b, d := [DigitChar(n % 10)], [DigitChar(m % 10)];
      LexLeConcat(a, b, c, d);
      DigitsOrder(n / 10, m / 10, width - 1);
      DigitsInjective(n / 10, m / 10, width - 1);
      DigitCharOrder(n % 10, m % 10);
      LastDigitOrder(n, m);
    }
  }

  lemma DigitCharOrder(x: int, y: int)
    requires 0 <= x < 10 && 0 <= y < 10
    ensures LexLe([DigitChar(x)], [DigitChar(y)]) <==> x <= y
  {
    assert [DigitChar(x)][1..] == [];
  }

  /** Numbers compare by their leading digits first, then their last digit. */
  lemma LastDigitOrder(n: nat, m: nat)
    ensures n <= m <==> n / 10 < m / 10 || (n / 10 == m / 10 && n % 10 <= m % 10)
  {
    assert n == 10 * (n / 10) + n % 10;
    assert m == 10 * (m / 10) + m % 10;
  }

  // ---------------------------------------------------------------------------
  // Splitting on a separator
  // ---------------------------------------------------------------------------

  function Count(s: string, c: char): nat
  {
    if |s| == 0 then 0 else (if s[0] == c then 1 else 0) + Count(s[1..], c)
  }

  /** The parts written back with the separator between them. */
  function Join(parts: seq<string>, sep: char): string
    requires |parts| > 0
  {
    if |parts| == 1 then parts[0] else parts[0] + [sep] + Join(parts[1..], sep)
  }

  /** Python's `s.split(sep)` for a one-character separator: the maximal
      separator-free pieces, empty ones included. */
  function Split(s: string, sep: char): (parts: seq<string>)
    ensures |parts| == Count(s, sep) + 1
    ensures forall i | 0 <= i < |parts| :: sep !in parts[i]
    ensures Join(parts, sep) == s
  {
    if |s| == 0 then [""]
    else
      var rest := Split(s[1..], sep);
      if s[0] == sep then
        assert s == [sep] + s[1..];
        [""] + rest
      else
        var parts := [[s[0]] + rest[0]] + rest[1..];
        assert parts[1..] == rest[1..];
        assert s == [s[0]] + s[1..];
        parts
  }

  lemma {:induction false} SplitNoSeparator(w: string, sep: char)
    requires sep !in w
    ensures Split(w, sep) == [w]
    decreases |w|
  {
    if |w| > 0 {
      SplitNoSeparator(w[1..], sep);
    }
  }

  lemma {:induction false} SplitFirstPart(w: string, sep: char, t: string)
    requires sep !in w
    ensures Split(w + [sep] + t, sep) == [w] + Split(t, sep)
    decreases |w|
  {
    var s := w + [sep] + t;
    if |w| > 0 {
      assert s[1..] == w[1..] + [sep] + t;
      SplitFirstPart(w[1..], sep, t);
      assert [w[0]] + w[1..] == w;
    } else {
      assert s[1..] == t;
    }
  }

  /** Splitting what `Join` wrote gives back the parts. */
  lemma {:induction false} SplitJoin(parts: seq<string>, sep: char)
    requires |parts| > 0
    requires forall i | 0 <= i < |parts| :: sep !in parts[i]
    ensures Split(Join(parts, sep), sep) == parts
    decreases |parts|
  {
    if |parts| == 1 {
      SplitNoSeparator(parts[0], sep);
    } else {
      SplitJoin(parts[1..], sep);
      SplitFirstPart(parts[0], sep, Join(parts[1..], sep));
      assert parts == [parts[0]] + parts[1..];
    }
  }

  // ---------------------------------------------------------------------------
  // Subsequences
  // ---------------------------------------------------------------------------

  /** `a` can be obtained from `b` by deleting elements. */
  predicate IsSubsequence<T(==)>(a: seq<T>, b: seq<T>)
    decreases |b|
  {
    |a| == 0 || (|b| > 0 && ((a[0] == b[0] && IsSubsequence(a[1..], b[1..])) || IsSubsequence(a, b[1..])))
  }

  // ---------------------------------------------------------------------------
  // Concatenation of many sequences
  // ---------------------------------------------------------------------------

  /** The parts written one after the other. */
  function Flatten<T>(parts: seq<seq<T>>): seq<T>
    decreases |parts|
  {
    if |parts| == 0 then [] else parts[0] + Flatten(parts[1..])
  }

  /** Appending one more part appends its elements. */
  lemma {:induction false} FlattenSnoc<T>(parts: seq<seq<T>>, last: seq<T>)
    ensures Flatten(parts + [last]) == Flatten(parts) + last
    decreases |parts|
  {
    if |parts| > 0 {
      assert (parts + [last])[1..] == parts[1..] + [last];
      FlattenSnoc(parts[1..], last);
    } else {
      assert [last][1..] == [];
    }
  }
}

=== FILE: wrappers.dfy ===
/** Failure-compatible wrappers: a value that may be absent (a pandas null, an
    unparsable field) and the outcome of a step that may raise. */
module Wrappers {

  /** An optional value; `None` stands for a null cell or a failed parse. */
  datatype Option<+T> = None | Some(value: T)

  /** The outcome of a step that either produces a value or raises an error. */
  datatype Result<+T, +E> = Ok(value: T) | Err(error: E) {

    predicate IsFailure() {
      Err?
    }

    function PropagateFailure<U>(): Result<U, E>
      requires Err?
    {
      Err(error)
    }

    function Extract(): T
      requires Ok?
    {
      value
    }
  }
}
